=== FILE: README.md ===
# Medallion pipeline run, modelled in Dafny

A model of one run of `pipeline_oficial.py`, the script that snapshots a
crypto-asset market feed and refines it through three warehouse layers:

1. **Ingestion** (`ingestao_ndjson`). Pick the records to persist. If the feed
   request fails, use a fixed synthetic snapshot of bitcoin, ethereum and solana.
   Render the records as newline-delimited JSON and store the document in the
   bucket `lab-dados-gcp-raw` under `raw/coins_<unix seconds>.json`. Return the
   `gs://` location, or nothing when the write fails.
2. **Bronze** (`camada_bronze`). Append-load the document into the staging table
   `BRZ_assets`. The load infers the schema on first load and ignores unknown
   fields afterwards.
3. **Silver** (`camada_silver`). Replace `SLV_assets` with one typed row per
   staging row. The three numeric text fields are `CAST` to FLOAT64, and each row
   is stamped with the query time.
4. **Gold** (`camada_gold`). Replace `GLD_market_summary` with one row per price
   category:
   - `"Alto Valor"` when `price_usd > 1000`, `"Baixo Valor"` otherwise;
   - `COUNT(asset_id)`;
   - `ROUND(AVG(price_usd), 2)`;
   - ordered by that average, descending.
5. **The run** (`__main__`). Ingestion first. Then, only when a location came
   back, each of the three stages once and in order. Every stage failure is
   caught and logged, and the run continues.

The feed, the bucket, the warehouse jobs, the clock and the JSON codec are
collaborators whose outcomes are parameters. The model is pure: immutable
datatypes for records, collaborator outcomes and table states, functions for
the operations, and lemmas for the promises.

| file | module | content |
|---|---|---|
| `wrappers.dfy` | `Wrappers` | `Option`, `Result` |
| `lines.dfy` | `Lines` | `'\n'.join`, the loader's cutting of a document into lines, and their round trips |
| `decimal.dfy` | `Decimal` | `str(int)`, and the `CAST(... AS FLOAT64)` text grammar |
| `records.dfy` | `Records` | captured records and the fallback snapshot |
| `ndjson.dfy` | `Ndjson` | encoder/decoder contract, document rendering and loading |
| `ingestion.dfy` | `Ingestion` | record selection, object key and URI, upload |
| `jobs.dfy` | `Jobs` | job outcomes and stage statuses |
| `bronze.dfy` | `Bronze` | `WRITE_APPEND` load with schema inference |
| `silver.dfy` | `Silver` | projection and casting query, full replace |
| `gold.dfy` | `Gold` | categorise, count, rounded average, group, order |
| `pipeline.dfy` | `Pipeline` | the run as a state transition |
| `fallback.dfy` | `FallbackRun` | the fallback snapshot carried through every layer |

A body with no `data` field is not treated as a failure. `.get('data', [])`
(line 43) selects no records, and the empty document is stored. See
`Ingestion.SelectRecords` and `Ingestion.MissingDataStoresEmptyDocument`.

## Model

| member | source | states |
|---|---|---|
| Records.FallbackRecords | pipeline_oficial.py:47-51 | the synthetic snapshot has three records, each with exactly the six asset fields, with ids bitcoin, ethereum, solana in that order |
| Ingestion.SelectRecords | pipeline_oficial.py:36-51 | a raised request or a non-object body selects the synthetic snapshot; an object without `data` selects no records; an object with a `data` list selects that list unchanged |
| Ingestion.FallbackIsDeterministic | pipeline_oficial.py:45-51 | any two failures select and render the same three records, with the exact literal field strings |
| Ingestion.MissingDataStoresEmptyDocument | pipeline_oficial.py:43-64 | a body without `data` does not trigger the fallback; a successful write then stores the empty document |
| Lines.Join | pipeline_oficial.py:55 | `'\n'.join` of no parts is empty; its line feeds and its inverse are stated by `Lines.JoinNewlines` and `Lines.SplitJoin` |
| Lines.Split | pipeline_oficial.py:81 | splitting on line feeds gives at least one piece and no piece holds a line feed; `Lines.JoinSplit` makes it the inverse of `Lines.Join` |
| Ndjson.Render | pipeline_oficial.py:55 | no records render as the empty document and one record as its encoding alone, with no trailing line feed; `Ndjson.RenderShape` and `Ndjson.ParseRender` give the general shape and the inverse |
| Ndjson.Parse | pipeline_oficial.py:81-89 | an empty document loads as no rows; a non-empty one that loads gives one row per line |
| Lines.SplitJoin | pipeline_oficial.py:55 | splitting the join of one or more newline-free parts on line feeds returns the parts in order |
| Lines.JoinSplit | pipeline_oficial.py:55 | joining the pieces of any text restores the text |
| Lines.JoinNewlines | pipeline_oficial.py:55 | joining N newline-free parts inserts exactly N-1 line feeds |
| Lines.SplitNewlines | pipeline_oficial.py:81 | splitting a text yields one piece more than it has line feeds |
| Ndjson.RenderShape | pipeline_oficial.py:55 | the document is empty exactly when there are no records; otherwise it has N-1 line feeds, starts with `{`, ends with `}` (no array brackets, no trailing newline), and splits into the N encodings in order |
| Ndjson.DecodeLines | pipeline_oficial.py:81-89 | a load decodes one record per line in order, and fails exactly when some line is rejected |
| Ndjson.ParseRender | pipeline_oficial.py:55-89 | when the decoder inverts the encoder, the loader reads the stored document back as exactly the selected records |
| Ingestion.ObjectKey | pipeline_oficial.py:58-59 | the key starts with `raw/coins_` and ends with `.json` |
| Ingestion.ObjectUri | pipeline_oficial.py:67 | the location is `gs://lab-dados-gcp-raw/` followed by the key |
| Ingestion.KeyRoundTrip | pipeline_oficial.py:58-59 | the timestamp read back from a key is the timestamp it was built from |
| Ingestion.DistinctTimestampsDistinctUris | pipeline_oficial.py:58-67 | two runs get the same key, and the same location, exactly when their whole-second timestamps are equal |
| Decimal.IntToDecimal | pipeline_oficial.py:58-59 | `str(ts)` is non-empty, starts with `-` exactly when `ts` is negative, and is otherwise all digits; `Decimal.IntRoundTrip` reads it back |
| Decimal.IntRoundTrip | pipeline_oficial.py:58-59 | reading `str(ts)` back gives `ts`, negative values included |
| Decimal.IntToDecimalInjective | pipeline_oficial.py:58-59 | distinct integers render as distinct decimal texts |
| Ingestion.Ingest | pipeline_oficial.py:57-70 | a failed write returns no location and leaves the store unchanged; a successful write stores the rendered records at the timestamp's location, overwriting an object already there, leaves every other object unchanged, and returns that location |
| Bronze.InferColumns | pipeline_oficial.py:82 | autodetect makes a column of exactly the fields that occur in some record of the batch |
| Bronze.Restrict | pipeline_oficial.py:84 | `ignore_unknown_values` keeps exactly the record's fields that are columns, with their values |
| Bronze.Append | pipeline_oficial.py:80-85 | a first load creates the table with exactly `Bronze.InferColumns(batch)` as columns (autodetect); a later load keeps the existing columns and rows as a prefix. Either way one row per record is added, each record restricted to the table's columns |
| Bronze.AppendTwice | pipeline_oficial.py:83 | no deduplication: two loads in a row, even of the same batch, keep every earlier row and add one row per record of each batch |
| Bronze.AppendKnownFields | pipeline_oficial.py:82-84 | a batch whose fields are all existing columns is stored record for record |
| Bronze.CreateKeepsEverything | pipeline_oficial.py:82-83 | the first load creates the table with every record whole and every field as a column |
| Bronze.InferUniformColumns | pipeline_oficial.py:82 | a non-empty batch whose records share one field set infers exactly those fields |
| Bronze.LoadBronze | pipeline_oficial.py:73-92 | without a truthy location the stage does nothing; it succeeds exactly when the job completes, the object exists and every line decodes, and then appends the batch; otherwise the table is unchanged |
| Decimal.ParseReal | pipeline_oficial.py:105-107 | a text that casts is non-empty and consists only of digits, a point and a minus sign; its value is non-negative without a leading `-` and non-positive with one |
| Decimal.ParseRealOfInt | pipeline_oficial.py:105-107 | the decimal text of any integer casts to that integer |
| Decimal.ScaledValue | pipeline_oficial.py:48-50 | a rendered number followed by `k` zeros, as in the market caps, spells that number times `10^k` |
| Decimal.ParseTrailingPoint | pipeline_oficial.py:105-107 | digit text followed by a bare point, such as `58.`, casts to the value of its digits |
| Decimal.ParseFixedText | pipeline_oficial.py:105-107 | digit text `w.f` casts to `w + f / 10^len(f)` |
| Silver.CastFloat | pipeline_oficial.py:105-107 | NULL casts to NULL; a text casts exactly when it parses as a number, and then to that number |
| Silver.RefineRow | pipeline_oficial.py:101-108 | a staging row refines exactly when its three numeric fields cast. `id`, `symbol` and `name` are projected as `asset_id`, `symbol` and `name`. `price_usd`, `market_cap` and `change_24h` are the casts of `priceUsd`, `marketCapUsd` and `changePercent24Hr`, so the price is NULL exactly when `priceUsd` is. The row carries the query time |
| Silver.RefineRows | pipeline_oficial.py:99-110 | the query succeeds exactly when every staging row casts, and then gives one refined row per staging row, in order |
| Silver.Refine | pipeline_oficial.py:99-110 | the query fails without a staging table or when a selected column is missing; otherwise it succeeds exactly when every row casts, with one row per staging row |
| Silver.RefineRowwise | pipeline_oficial.py:99-110 | on success, refined row i is staging row i through the SELECT list, so each refined value is the cast or projection `Silver.RefineRow` states |
| Silver.RefineSilver | pipeline_oficial.py:99-115 | a completed query replaces the table with the query result; a failed one leaves it unchanged and marks the stage failed |
| Silver.RefineRowsIgnoresClock | pipeline_oficial.py:101-108 | two query times succeed or fail together and give the same rows apart from the load timestamp |
| Silver.RefineReplaces | pipeline_oficial.py:100-115 | full replace: the new table depends on the staging table only, not on the old refined table; refreshing twice differs only in timestamps |
| Silver.RefineProjectsIds | pipeline_oficial.py:102 | refined row i carries staging row i's `id` as `asset_id` |
| Gold.Categorize | pipeline_oficial.py:123-126 | "Alto Valor" exactly when the price is present and strictly above 1000; a NULL price or exactly 1000 is "Baixo Valor" |
| Gold.InCategory | pipeline_oficial.py:130 | a row is in a category's group exactly when it is a refined row of that category |
| Gold.InCategoryMultiplicity | pipeline_oficial.py:127-130 | duplicates are kept: a row occurs in its category's group as often as in the refined table, and not at all in the other group |
| Gold.CountIds | pipeline_oficial.py:127 | `COUNT(asset_id)` is at most the group's size, and equals it exactly when no `asset_id` is NULL |
| Gold.PricesAppend | pipeline_oficial.py:128 | the prices `AVG` sees over two stretches of rows are the first stretch's prices followed by the second's, duplicates kept |
| Gold.PricesOne | pipeline_oficial.py:128 | one row contributes its price when present and nothing when NULL |
| Gold.CountIdsAppend | pipeline_oficial.py:127 | `COUNT(asset_id)` over two stretches of rows is the sum of their counts, duplicates counted |
| Gold.CountIdsOne | pipeline_oficial.py:127 | one row counts 1 when its `asset_id` is present and 0 when it is NULL |
| Gold.Mean | pipeline_oficial.py:128 | `AVG` is NULL over no prices; otherwise the mean times the number of prices is their sum |
| Gold.Summary | pipeline_oficial.py:123-130 | a category's row names that category. Its count is `COUNT(asset_id)` over that category's rows, and its average is the rounded mean of their non-NULL prices |
| Gold.Groups | pipeline_oficial.py:123-130 | at most two groups |
| Gold.GroupsAreSummaries | pipeline_oficial.py:123-130 | every group is its category's aggregate row, and only a category with rows forms a group |
| Gold.Round2 | pipeline_oficial.py:128 | the rounded value is a whole number of hundredths within 0.005 of the input. A value exactly half-way goes away from zero: strictly above `x - 0.005` for `x >= 0`, strictly below `x + 0.005` for `x < 0` |
| Gold.RoundUnique | pipeline_oficial.py:128 | that rounding rule determines the result: any whole-hundredths value that meets it equals `Round2(x)` |
| Gold.RoundKeepsCents | pipeline_oficial.py:128 | rounding leaves a value that is already whole hundredths unchanged |
| Gold.RoundHalvesAwayFromZero | pipeline_oficial.py:128 | every half-way value `(2k+1)/200` rounds away from zero: to `(k+1)/100` when `k >= 0`, to `k/100` when `k < 0` |
| Gold.RoundedMean | pipeline_oficial.py:128 | the average is NULL exactly when the group has no prices; otherwise it is the mean rounded to hundredths |
| Gold.CategoryAverages | pipeline_oficial.py:123-128 | the high group's exact mean is above 1000 and the low group's at most 1000; after rounding, the high average is at least 1000 and the low one at most 1000 |
| Gold.AveragesCanTie | pipeline_oficial.py:128-131 | prices 1000.001 and 1000 land in different categories but both average 1000.00, so the ordering has a tie |
| Gold.Insert | pipeline_oficial.py:131 | inserting into a descending sequence keeps it descending and adds exactly the one row |
| Gold.Summarize | pipeline_oficial.py:120-132 | the summary is in descending average order, NULL averages last, and is a permutation of the category groups |
| Gold.SummarizeListsHighFirst | pipeline_oficial.py:131 | the ordering never moves "Alto Valor" after "Baixo Valor" |
| Gold.CountsPartition | pipeline_oficial.py:127-130 | the two categories' counts add up to the refined rows with a non-NULL `asset_id` |
| Gold.GroupsListOccurring | pipeline_oficial.py:130 | the grouping lists a category exactly when some refined row falls in it |
| Gold.SummaryShape | pipeline_oficial.py:123-131 | at most two rows, one per category present, high before low, counts summing to the non-NULL ids, no rows exactly when there are no refined rows, averages non-increasing |
| Gold.AggregateGold | pipeline_oficial.py:120-137 | without a refined table, or when the query raises, the summary is unchanged and the stage failed; otherwise the summary is replaced |
| Gold.AggregateReplaces | pipeline_oficial.py:121 | full replace: a successful summary does not depend on the previous summary table |
| Pipeline.RunStages | pipeline_oficial.py:142-145 | bronze, silver and gold are each attempted once, in that order, and none is skipped; a failed stage leaves its own table as it was |
| Pipeline.Run | pipeline_oficial.py:139-146 | a failed upload ends the run with nothing attempted and the state unchanged; a stored document leads to the three stages in order and the success banner, whatever the stages did |
| Pipeline.StagesChain | pipeline_oficial.py:142-145 | log and continue: each stage runs on the table the previous stage left, including after a failure |
| Pipeline.StagesSucceed | pipeline_oficial.py:142-145 | when the document loads, the jobs complete and every row casts, the warehouse becomes the appended staging table, its refinement and that refinement's summary |
| Pipeline.RunAppendsBatch | pipeline_oficial.py:141-143 | a stored document always loads when the load job completes: the staging table becomes the old rows followed by the selected records, each restricted to the table's columns |
| FallbackRun.FallbackRefines | pipeline_oficial.py:47-110 | the synthetic records refine to the exact prices 65000.5, 3500.2 and 140, market caps, and changes 2.5, -1.2 and 5 |
| FallbackRun.FallbackCreatesAssetTable | pipeline_oficial.py:80-85 | loading the synthetic batch into no table creates a table with exactly the six asset fields holding the records unchanged |
| FallbackRun.FallbackSummarizes | pipeline_oficial.py:120-132 | the synthetic snapshot summarises as "Alto Valor" with 2 assets averaging 34250.35, ahead of "Baixo Valor" with 1 asset at 140 |
| FallbackRun.FeedDownFirstRun | pipeline_oficial.py:39-146 | with the feed down and everything else working, a first run leaves exactly the expected staging, refined and summary tables, with all three stages succeeded |

## Left out

- The HTTP request (`requests.get`, its timeout, `response.json`) is network I/O. Only its outcome is modelled: it raised, it parsed to a non-object, or it parsed to an object with or without `data`.
- A `data` value that is not a list of objects is left out. Records are objects with string or null fields. Python would still iterate a dict (its keys), a string (its characters) or a list of scalars at line 55 and store each element's JSON text. Only `null`, a number or a boolean raises `TypeError` there, outside any handler.
- Field values other than strings and null are left out. The feed sends every asset field as a string.
- The object store, the warehouse, credentials and clients are foreign services. The store is a map from location to text. Each warehouse job is an outcome, `Completes` or `Raises`, covering permissions, quotas and outages.
- `setup_inicial` (lines 20-29) is bootstrap plumbing. The model assumes the dataset exists.
- `time.time()` and `CURRENT_TIMESTAMP()` are clocks. Their values are the `timestamp` and `queryTime` parameters.
- `json.dumps` and the loader's JSON parser are opaque functions. The model only assumes that every encoding is one-line object text and that the parser inverts the encoder.
- Every `print` is diagnostics only. The model keeps just whether the final success banner is printed.
- `agendador_crypto.py` is scheduler configuration with no logic.
- Concurrent runs are left out. The script assumes a single writer.
- Decimal.ParseReal: accepts only `-?digits(.digits?)?`, so `58.` casts to 58. BigQuery also accepts exponents, a leading `+`, surrounding spaces, `.5`-style text and `inf`/`nan`. Those texts are treated as cast failures.
- Silver.Row: FLOAT64 is modelled as exact reals. Binary floating-point rounding of the cast values and of `AVG` is not modelled.
- Gold.Summarize: rows whose rounded averages tie (see `Gold.AveragesCanTie`) are ordered "Alto Valor" first. BigQuery leaves the order of tied rows unspecified.
- Bronze.Append: autodetect is modelled as taking every field of the batch as a column. The column types it infers are not modelled; values are kept as received. An empty first batch is modelled as creating a table with no columns.

=== FILE: bronze.dfy ===
/**
 * Bronze layer (`camada_bronze`): append-load the stored newline-delimited
 * document into the staging table `BRZ_assets`, with schema inference on
 * creation and unknown fields ignored afterwards.
 */
module Bronze {
  import opened Wrappers
  import opened Records
  import opened Jobs
  import Ndjson
  import Ingestion

  /** The staging table: not yet created, or its column set and rows in load order. */
  datatype Table = Absent | Table(columns: set<string>, rows: seq<Record>)

  /** Every field that appears in some record of the batch (schema inference). */
  function InferColumns(batch: seq<Record>): (cols: set<string>)
    ensures forall i, k :: 0 <= i < |batch| && k in batch[i] ==> k in cols
    ensures forall k :: k in cols ==> exists i :: 0 <= i < |batch| && k in batch[i]
  {
    if |batch| == 0 then {}
    else
      var rest := InferColumns(batch[1..]);
      assert forall i :: 1 <= i < |batch| ==> batch[i] == batch[1..][i - 1];
      batch[0].Keys + rest
  }

  /** A record with the fields outside `cols` dropped. */
  function Restrict(r: Record, cols: set<string>): (r': Record)
    ensures forall k :: k in r' <==> k in r && k in cols
    ensures forall k :: k in r' ==> r'[k] == r[k]
  {
    map k | k in r && k in cols :: r[k]
  }

  /** The batch rows as the table stores them: each restricted to the columns. */
  function Conform(batch: seq<Record>, cols: set<string>): (rows: seq<Record>)
    ensures |rows| == |batch|
    ensures forall i :: 0 <= i < |batch| ==> rows[i] == Restrict(batch[i], cols)
  {
    if |batch| == 0 then []
    else [Restrict(batch[0], cols)] + Conform(batch[1..], cols)
  }

  /**
   * `WRITE_APPEND`: creating the table from the batch's fields when absent,
   * otherwise keeping the existing columns and ignoring unknown values.
   */
  function Append(t: Table, batch: seq<Record>): (t': Table)
    ensures t'.Table?
    ensures t.Table? ==> t'.columns == t.columns
    ensures t.Absent? ==> t'.columns == InferColumns(batch)
    ensures |t'.rows| == (if t.Table? then |t.rows| else 0) + |batch|
    ensures t.Table? ==> t'.rows[..|t.rows|] == t.rows
    ensures forall i :: 0 <= i < |batch| ==>
      t'.rows[|t'.rows| - |batch| + i] == Restrict(batch[i], t'.columns)
  {
    match t
    case Absent =>
      var cols := InferColumns(batch);
      Table(cols, Conform(batch, cols))
    case Table(_, _) =>
      var added := Conform(batch, t.columns);
      ConcatParts(t.rows, added);
      Table(t.columns, t.rows + added)
  }

  /** A concatenation starts with its first operand and ends with its second. */
  lemma ConcatParts(kept: seq<Record>, added: seq<Record>)
    ensures (kept + added)[..|kept|] == kept
    ensures forall i :: 0 <= i < |added| ==> (kept + added)[|kept| + i] == added[i]
  {
  }

  /** Python truthiness of the location: `None` and the empty string are false. */
  predicate Truthy(uri: Option<string>) {
    uri.Some? && uri.value != ""
  }

  /** The table after a load attempt and the stage's status. */
  datatype Loaded = Loaded(table: Table, status: Status)

  /**
   * One bronze stage. Without a location nothing happens. Otherwise the load
   * job fails (and the table is untouched) when the warehouse raises, the
   * object is missing or a line is rejected; else the batch is appended.
   */
  function LoadBronze(t: Table, lake: Ingestion.Lake, uri: Option<string>, job: JobOutcome, decode: Ndjson.Decoder): (r: Loaded)
    ensures !Truthy(uri) ==> r == Loaded(t, Skipped)
    ensures r.status != Succeeded ==> r.table == t
    ensures r.status == Succeeded <==>
      Truthy(uri) && job.Completes? && uri.value in lake && Ndjson.Parse(lake[uri.value], decode).Some?
    ensures r.status == Succeeded ==> r.table == Append(t, Ndjson.Parse(lake[uri.value], decode).value)
  {
    if !Truthy(uri) then Loaded(t, Skipped)
    else if job.Raises? || uri.value !in lake then Loaded(t, Failed)
    else
      match Ndjson.Parse(lake[uri.value], decode)
      case None => Loaded(t, Failed)
      case Some(batch) => Loaded(Append(t, batch), Succeeded)
  }

  /**
   * No deduplication: loading two batches in a row, even the same one twice,
   * leaves every earlier row in place and adds one row per batch record.
   */
  lemma {:induction false} AppendTwice(t: Table, b1: seq<Record>, b2: seq<Record>)
    ensures var t2 := Append(Append(t, b1), b2);
      && |t2.rows| == (if t.Table? then |t.rows| else 0) + |b1| + |b2|
      && (t.Table? ==> t2.rows[..|t.rows|] == t.rows)
  {
    var t1 := Append(t, b1);
    var t2 := Append(t1, b2);
    if t.Table? {
      assert t2.rows[..|t1.rows|] == t1.rows;
      assert t2.rows[..|t.rows|] == t2.rows[..|t1.rows|][..|t.rows|];
    }
  }

  /**
   * A batch whose fields are all already columns is stored unchanged: the
   * table's rows become the old rows followed by the batch records themselves.
   */
  lemma {:induction false} AppendKnownFields(t: Table, batch: seq<Record>)
    requires t.Table?
    requires forall i :: 0 <= i < |batch| ==> batch[i].Keys <= t.columns
    ensures Append(t, batch).rows == t.rows + batch
  {
    var t' := Append(t, batch);
    assert forall i :: 0 <= i < |batch| ==> Restrict(batch[i], t.columns) == batch[i];
    assert Conform(batch, t.columns) == batch;
  }

  /** Creating the table from a batch keeps every record whole and every field as a column. */
  lemma {:induction false} CreateKeepsEverything(batch: seq<Record>)
    ensures Append(Absent, batch).rows == batch
    ensures forall i :: 0 <= i < |batch| ==> batch[i].Keys <= Append(Absent, batch).columns
  {
    var cols := InferColumns(batch);
    assert forall i :: 0 <= i < |batch| ==> Restrict(batch[i], cols) == batch[i];
    assert Conform(batch, cols) == batch;
  }

  /** A non-empty batch whose records all have the same fields infers exactly those fields. */
  lemma {:induction false} InferUniformColumns(batch: seq<Record>, fields: set<string>)
    requires |batch| >= 1
    requires forall i :: 0 <= i < |batch| ==> batch[i].Keys == fields
    ensures InferColumns(batch) == fields
  {
    assert batch[0].Keys == fields;
  }
}

=== FILE: decimal.dfy ===
/**
 * Decimal text: Python's `str(int)` (used for the object key's timestamp) and
 * the warehouse's `CAST(text AS FLOAT64)` (used by the silver layer), the latter
 * over exact reals.
 */
module Decimal {
  import opened Wrappers

  predicate IsDigit(c: char) {
    '0' <= c <= '9'
  }

  predicate AllDigits(s: string) {
    forall i :: 0 <= i < |s| ==> IsDigit(s[i])
  }

  function DigitChar(d: nat): (c: char)
    requires d < 10
    ensures IsDigit(c)
  {
    ('0' as int + d) as char
  }

  function DigitValue(c: char): (d: nat)
    requires IsDigit(c)
    ensures d < 10 && DigitChar(d) == c
  {
    c as int - '0' as int
  }

  /** The shortest base-ten spelling of `n`, without sign or leading zeros. */
  function NatToDecimal(n: nat): (s: string)
    ensures |s| >= 1 && AllDigits(s)
    ensures n >= 10 <==> |s| >= 2
    decreases n
  {
    if n < 10 then [DigitChar(n)] else NatToDecimal(n / 10) + [DigitChar(n % 10)]
  }

  /** `str(i)` for a Python int: a minus sign before the magnitude when negative. */
  function IntToDecimal(i: int): (s: string)
    ensures |s| >= 1
    ensures s[0] == '-' <==> i < 0
    ensures i < 0 ==> |s| >= 2 && AllDigits(s[1..])
    ensures i >= 0 ==> AllDigits(s)
  {
    if i < 0 then "-" + NatToDecimal(-i) else NatToDecimal(i)
  }

  /** The value of a string of decimal digits, most significant first. */
  function DigitsValue(s: string): (n: nat)
    requires AllDigits(s)
  {
    if |s| == 0 then 0 else DigitsValue(s[..|s| - 1]) * 10 + DigitValue(s[|s| - 1])
  }

  /** Reading back a rendered natural number gives the number. */
  lemma {:induction false} DigitsValueOfDecimal(n: nat)
    ensures DigitsValue(NatToDecimal(n)) == n
    decreases n
  {
    var s := NatToDecimal(n);
    if n >= 10 {
      DigitsValueOfDecimal(n / 10);
      assert s[..|s| - 1] == NatToDecimal(n / 10);
    }
  }

  /** Parses an optionally negative run of digits, the shape `str(int)` produces. */
  function ParseInt(s: string): (r: Option<int>)
    ensures r.Some? ==> |s| >= 1
  {
    if |s| >= 2 && s[0] == '-' && AllDigits(s[1..]) then Some(0 - DigitsValue(s[1..]))
    else if |s| >= 1 && AllDigits(s) then Some(DigitsValue(s))
    else None
  }

  /** A minus sign before a rendered magnitude reads back as the negated magnitude. */
  lemma {:induction false} ParseNegative(n: nat)
    requires n > 0
    ensures ParseInt("-" + NatToDecimal(n)) == Some(0 - n)
  {
    var m := NatToDecimal(n);
    var s := "-" + m;
    assert s[0] == '-' && s[1..] == m;
    DigitsValueOfDecimal(n);
  }

  /** A rendered natural number reads back as itself. */
  lemma {:induction false} ParseNonNegative(n: nat)
    ensures ParseInt(NatToDecimal(n)) == Some(n)
  {
    var m := NatToDecimal(n);
    DigitsValueOfDecimal(n);
    assert m[0] != '-' by { assert IsDigit(m[0]); }
  }

  /** `ParseInt` inverts `IntToDecimal` on every integer. */
  lemma {:induction false} IntRoundTrip(i: int)
    ensures ParseInt(IntToDecimal(i)) == Some(i)
  {
    if i < 0 {
      ParseNegative(-i);
    } else {
      ParseNonNegative(i);
    }
  }

  /** Distinct integers have distinct decimal spellings. */
  lemma {:induction false} IntToDecimalInjective(a: int, b: int)
    ensures IntToDecimal(a) == IntToDecimal(b) <==> a == b
  {
    IntRoundTrip(a);
    IntRoundTrip(b);
  }

  /** Position of the first `c` in `s`, or `|s|` when there is none. */
  function IndexOf(s: string, c: char): (k: nat)
    ensures k <= |s|
    ensures k < |s| ==> s[k] == c
    ensures forall j :: 0 <= j < k ==> s[j] != c
  {
    if |s| == 0 then 0
    else if s[0] == c then 0
    else 1 + IndexOf(s[1..], c)
  }

  function Pow10(n: nat): (p: nat)
    ensures p >= 1
  {
    if n == 0 then 1 else 10 * Pow10(n - 1)
  }

  /**
   * An unsigned decimal: digits, optionally followed by a point and more digits.
   * At least one digit comes before the point; the digits after it may be
   * absent, so `58.` reads as 58, as in a float literal.
   */
  function ParseUnsigned(s: string): (r: Option<real>)
    ensures r.Some? ==> r.value >= 0.0
  {
    var k := IndexOf(s, '.');
    var whole := s[..k];
    if |whole| == 0 || !AllDigits(whole) then None
    else if k == |s| then Some(DigitsValue(whole) as real)
    else
      var frac := s[k + 1..];
      if |frac| == 0 then Some(DigitsValue(whole) as real)
      else if !AllDigits(frac) then None
      else Some(Fixed(DigitsValue(whole), DigitsValue(frac), |frac|))
  }

  /** The value of `whole.frac` where `frac` has `places` digits. */
  function Fixed(whole: nat, frac: nat, places: nat): (x: real)
    ensures x >= whole as real
  {
    whole as real + frac as real / Pow10(places) as real
  }

  /** Characters that may appear in text the cast accepts. */
  predicate NumericChar(c: char) {
    IsDigit(c) || c == '.' || c == '-'
  }

  /**
   * `CAST(text AS FLOAT64)` as a partial function: an optional leading minus sign
   * and an unsigned decimal. `None` is the cast error that makes the query fail.
   */
  function ParseReal(s: string): (r: Option<real>)
    ensures r.Some? ==> |s| >= 1 && forall i :: 0 <= i < |s| ==> NumericChar(s[i])
    ensures r.Some? && s[0] != '-' ==> r.value >= 0.0
    ensures r.Some? && s[0] == '-' ==> r.value <= 0.0
  {
    if |s| >= 1 && s[0] == '-' then
      match ParseUnsigned(s[1..])
      case Some(x) => (assert s == [s[0]] + s[1..]; AllNumeric(s[1..]); Some(-x))
      case None => None
    else
      match ParseUnsigned(s)
      case Some(x) => (AllNumeric(s); Some(x))
      case None => None
  }

  /** Text the unsigned parser accepts is made of digits and at most a point. */
  lemma {:induction false} AllNumeric(s: string)
    requires ParseUnsigned(s).Some?
    ensures |s| >= 1 && forall i :: 0 <= i < |s| ==> IsDigit(s[i]) || s[i] == '.'
  {
    var k := IndexOf(s, '.');
    forall i | 0 <= i < |s| ensures IsDigit(s[i]) || s[i] == '.' {
      if i < k {
        assert s[i] == s[..k][i];
      } else if i > k {
        assert s[i] == s[k + 1..][i - k - 1];
      }
    }
  }

  /** The cast reads a rendered integer back as exactly that number. */
  lemma {:induction false} ParseRealOfInt(i: int)
    ensures ParseReal(IntToDecimal(i)) == Some(i as real)
  {
    var n: nat := if i < 0 then -i else i;
    var m := NatToDecimal(n);
    DigitsValueOfDecimal(n);
    assert forall j :: 0 <= j < |m| ==> m[j] != '.';
    assert IndexOf(m, '.') == |m|;
    assert m[..|m|] == m;
    if i < 0 {
      assert IntToDecimal(i)[1..] == m;
    } else {
      assert IsDigit(m[0]);
    }
  }

  /** `k` zero digits. */
  function Zeros(k: nat): (z: string)
    ensures |z| == k && AllDigits(z)
  {
    if k == 0 then "" else Zeros(k - 1) + "0"
  }

  /** Zero digits are worth nothing. */
  lemma {:induction false} ZerosValue(k: nat)
    ensures DigitsValue(Zeros(k)) == 0
  {
    if k > 0 {
      var z' := Zeros(k - 1);
      ZerosValue(k - 1);
      var z := z' + "0";
      assert z[..|z| - 1] == z';
      assert DigitsValue(z) == DigitsValue(z') * 10 + DigitValue('0');
    }
  }

  lemma ShiftDigit(x: nat, p: nat, y: nat, d: nat)
    ensures (x * p + y) * 10 + d == x * (p * 10) + (y * 10 + d)
  {
  }

  /** The digits of `a` followed by those of `b` are worth `a` shifted left by `|b|` places, plus `b`. */
  lemma {:induction false} DigitsAppend(a: string, b: string)
    requires AllDigits(a) && AllDigits(b)
    ensures AllDigits(a + b)
    ensures DigitsValue(a + b) == DigitsValue(a) * Pow10(|b|) + DigitsValue(b)
    decreases |b|
  {
    if |b| > 0 {
      var b' := b[..|b| - 1];
      var ab := a + b;
      assert ab[..|ab| - 1] == a + b';
      DigitsAppend(a, b');
      ShiftDigit(DigitsValue(a), Pow10(|b'|), DigitsValue(b'), DigitValue(b[|b| - 1]));
    } else {
      assert a + b == a;
    }
  }

  /** The rendering of `n` followed by `k` zeros, as in `"65000"` or `"00"`. */
  function Scaled(n: nat, k: nat): (s: string)
    ensures |s| >= 1 && AllDigits(s)
  {
    NatToDecimal(n) + Zeros(k)
  }

  /** `Scaled(n, k)` spells `n * 10^k`. */
  lemma {:induction false} ScaledValue(n: nat, k: nat)
    ensures DigitsValue(Scaled(n, k)) == n * Pow10(k)
  {
    DigitsAppend(NatToDecimal(n), Zeros(k));
    DigitsValueOfDecimal(n);
    ZerosValue(k);
  }

  /** Text without a leading minus sign casts as an unsigned decimal. */
  lemma {:induction false} ParseRealUnsigned(s: string)
    requires |s| >= 1 && s[0] != '-'
    ensures ParseReal(s) == ParseUnsigned(s)
  {
  }

  /** Text with a leading minus sign casts to the negated unsigned decimal after it. */
  lemma {:induction false} ParseRealNegative(s: string)
    requires |s| >= 1 && s[0] == '-'
    ensures ParseUnsigned(s[1..]).Some? ==> ParseReal(s) == Some(-ParseUnsigned(s[1..]).value)
    ensures ParseUnsigned(s[1..]).None? ==> ParseReal(s) == None
  {
  }

  /** The first point after a run of digits is right after them. */
  lemma {:induction false} IndexAfterDigits(w: string, rest: string)
    requires AllDigits(w)
    requires |rest| >= 1 && rest[0] == '.'
    ensures IndexOf(w + rest, '.') == |w|
  {
    if |w| > 0 {
      assert (w + rest)[0] == w[0] && IsDigit(w[0]);
      assert (w + rest)[1..] == w[1..] + rest;
      IndexAfterDigits(w[1..], rest);
    } else {
      assert w + rest == rest;
    }
  }

  /** Whole digits, a point and fraction digits read as whole + fraction / 10^(fraction length). */
  lemma {:induction false} ParsePointed(w: string, f: string)
    requires |w| >= 1 && |f| >= 1 && AllDigits(w) && AllDigits(f)
    ensures ParseUnsigned(w + "." + f) == Some(Fixed(DigitsValue(w), DigitsValue(f), |f|))
  {
    var s := w + "." + f;
    var rest := "." + f;
    IndexAfterDigits(w, rest);
    assert s == w + rest;
    var k := IndexOf(s, '.');
    assert k == |w|;
    assert s[..k] == w;
    assert s[k + 1..] == f;
  }

  /** Whole digits and a trailing point read as the whole digits' value. */
  lemma {:induction false} ParseTrailingPoint(w: string)
    requires |w| >= 1 && AllDigits(w)
    ensures ParseReal(w + ".") == Some(DigitsValue(w) as real)
  {
    var s := w + ".";
    IndexAfterDigits(w, ".");
    assert s[..|w|] == w;
    assert s[|w| + 1..] == "";
    assert s[0] == w[0] && IsDigit(w[0]);
    ParseRealUnsigned(s);
  }

  /** Whole digits alone read as their value. */
  lemma {:induction false} ParseWhole(w: string)
    requires |w| >= 1 && AllDigits(w)
    ensures ParseUnsigned(w) == Some(DigitsValue(w) as real)
  {
    assert forall j :: 0 <= j < |w| ==> w[j] != '.';
    assert IndexOf(w, '.') == |w|;
    assert w[..|w|] == w;
  }

  /** A rendered whole part, a point and fraction digits cast to whole + fraction / 10^(fraction length). */
  lemma {:induction false} ParseFixed(w: nat, f: string)
    requires |f| >= 1 && AllDigits(f)
    ensures ParseReal(NatToDecimal(w) + "." + f) == Some(w as real + DigitsValue(f) as real / Pow10(|f|) as real)
  {
    var m := NatToDecimal(w);
    DigitsValueOfDecimal(w);
    ParsePointed(m, f);
    assert IsDigit(m[0]);
    ParseRealUnsigned(m + "." + f);
  }

  /** A rendered natural number casts to itself. */
  lemma {:induction false} ParseNat(n: nat)
    ensures ParseReal(NatToDecimal(n)) == Some(n as real)
  {
    ParseRealOfInt(n);
  }

  /** Digit text of known value casts to that value. */
  lemma {:induction false} ParseDigitsOfValue(w: string, n: nat)
    requires |w| >= 1 && AllDigits(w) && DigitsValue(w) == n
    ensures ParseReal(w) == Some(n as real)
  {
    ParseWhole(w);
    assert IsDigit(w[0]);
    ParseRealUnsigned(w);
  }

  /** Digit texts of known values around a point cast to whole + fraction / 10^(fraction length). */
  lemma {:induction false} ParseFixedText(w: string, f: string, a: nat, b: nat)
    requires |w| >= 1 && |f| >= 1 && AllDigits(w) && AllDigits(f)
    requires DigitsValue(w) == a && DigitsValue(f) == b
    ensures ParseReal(w + "." + f) == Some(a as real + b as real / Pow10(|f|) as real)
  {
    ParsePointed(w, f);
    assert (w + "." + f)[0] == w[0] && IsDigit(w[0]);
    ParseRealUnsigned(w + "." + f);
  }
}

=== FILE: fallback.dfy ===
/**
 * The run in which the feed is unreachable, followed end to end: the three
 * synthetic records are stored, loaded into a fresh staging table, cast
 * exactly and summarised.
 */
module FallbackRun {
  import opened Wrappers
  import opened Jobs
  import opened Decimal
  import opened Records
  import opened Ndjson
  import opened Ingestion
  import Bronze
  import Silver
  import Gold
  import Pipeline

  /** The fallback records as refined rows: every field cast exactly. */
  function FallbackRefined(now: int): (rows: seq<Silver.Row>) {
    [ Silver.Row(Some("bitcoin"), Some("BTC"), Some("Bitcoin"), Some(65000.5), Some(1200000000000.0), Some(2.5), now),
      Silver.Row(Some("ethereum"), Some("ETH"), Some("Ethereum"), Some(3500.2), Some(400000000000.0), Some(-1.2), now),
      Silver.Row(Some("solana"), Some("SOL"), Some("Solana"), Some(140.0), Some(60000000000.0), Some(5.0), now) ]
  }

  /** Digit text `Scaled(w, wk)`, a point and a one-digit `Scaled(f, fk)` cast to the sum of the two values. */
  lemma {:induction false} CastScaledFixed(w: nat, wk: nat, f: nat, fk: nat)
    requires f < 10
    ensures ParseReal(Scaled(w, wk) + "." + Scaled(f, fk))
      == Some((w * Pow10(wk)) as real + (f * Pow10(fk)) as real / Pow10(1 + fk) as real)
  {
    ScaledValue(w, wk);
    ScaledValue(f, fk);
    ParseFixedText(Scaled(w, wk), Scaled(f, fk), w * Pow10(wk), f * Pow10(fk));
  }

  /** Digit text `Scaled(n, k)` casts to `n * 10^k`. */
  lemma {:induction false} CastScaled(n: nat, k: nat)
    ensures ParseReal(Scaled(n, k)) == Some((n * Pow10(k)) as real)
  {
    ScaledValue(n, k);
    ParseDigitsOfValue(Scaled(n, k), n * Pow10(k));
  }

  lemma BitcoinPriceCastDigits()
    ensures Scaled(65, 3) == "65000" && Scaled(5, 1) == "50"
  {
  }

  lemma BitcoinPriceCastParts()
    ensures ParseReal("65000" + "." + "50") == Some(65000.5)
  {
    BitcoinPriceCastDigits();
    CastScaledFixed(65, 3, 5, 1);
    assert Pow10(3) == 1000 && Pow10(2) == 100;
  }

  /** The bitcoin price text casts exactly. */
  lemma BitcoinPriceCast()
    ensures ParseReal("65000.50") == Some(65000.5)
  {
    BitcoinPriceCastParts();
    assert "65000.50" == "65000" + "." + "50";
  }

  lemma EthereumPriceCastDigits()
    ensures Scaled(35, 2) == "3500" && Scaled(2, 1) == "20"
  {
  }

  lemma EthereumPriceCastParts()
    ensures ParseReal("3500" + "." + "20") == Some(3500.2)
  {
    EthereumPriceCastDigits();
    CastScaledFixed(35, 2, 2, 1);
    assert Pow10(2) == 100;
  }

  /** The ethereum price text casts exactly. */
  lemma EthereumPriceCast()
    ensures ParseReal("3500.20") == Some(3500.2)
  {
    EthereumPriceCastParts();
    assert "3500.20" == "3500" + "." + "20";
  }

  lemma SolanaPriceCastDigits()
    ensures Scaled(14, 1) == "140" && Scaled(0, 1) == "00"
  {
  }

  lemma SolanaPriceCastParts()
    ensures ParseReal("140" + "." + "00") == Some(140.0)
  {
    SolanaPriceCastDigits();
    CastScaledFixed(14, 1, 0, 1);
    assert Pow10(1) == 10;
  }

  /** The solana price text casts exactly. */
  lemma SolanaPriceCast()
    ensures ParseReal("140.00") == Some(140.0)
  {
    SolanaPriceCastParts();
    assert "140.00" == "140" + "." + "00";
  }

  lemma BitcoinCapCastDigits()
    ensures Scaled(12, 11) == "1200000000000"
  {
    assert NatToDecimal(12) == "12";
    assert Zeros(11) == "00000000000";
  }

  /** The bitcoin market-cap text casts exactly. */
  lemma BitcoinCapCast()
    ensures ParseReal("1200000000000") == Some(1200000000000.0)
  {
    BitcoinCapCastDigits();
    CastScaled(12, 11);
    assert Pow10(11) == 100000000000;
  }

  lemma EthereumCapCastDigits()
    ensures Scaled(4, 11) == "400000000000"
  {
    assert NatToDecimal(4) == "4";
    assert Zeros(11) == "00000000000";
  }

  /** The ethereum market-cap text casts exactly. */
  lemma EthereumCapCast()
    ensures ParseReal("400000000000") == Some(400000000000.0)
  {
    EthereumCapCastDigits();
    CastScaled(4, 11);
    assert Pow10(11) == 100000000000;
  }

  lemma SolanaCapCastDigits()
    ensures Scaled(6, 10) == "60000000000"
  {
    assert NatToDecimal(6) == "6";
    assert Zeros(10) == "0000000000";
  }

  /** The solana market-cap text casts exactly. */
  lemma SolanaCapCast()
    ensures ParseReal("60000000000") == Some(60000000000.0)
  {
    SolanaCapCastDigits();
    CastScaled(6, 10);
    assert Pow10(10) == 10000000000;
  }

  lemma BitcoinChangeCastParts()
    ensures ParseReal("2" + "." + "5") == Some(2.5)
  {
    assert Scaled(2, 0) == "2" && Scaled(5, 0) == "5";
    CastScaledFixed(2, 0, 5, 0);
  }

  /** The bitcoin 24-hour change text casts exactly. */
  lemma BitcoinChangeCast()
    ensures ParseReal("2.5") == Some(2.5)
  {
    BitcoinChangeCastParts();
    assert "2.5" == "2" + "." + "5";
  }

  lemma EthereumChangeCastParts()
    ensures ParseReal("1" + "." + "2") == Some(1.2)
  {
    assert Scaled(1, 0) == "1" && Scaled(2, 0) == "2";
    CastScaledFixed(1, 0, 2, 0);
  }

  /** The ethereum 24-hour change text casts exactly, sign included. */
  lemma EthereumChangeCast()
    ensures ParseReal("-1.2") == Some(-1.2)
  {
    EthereumChangeCastParts();
    var s := "-1.2";
    assert s[1..] == "1" + "." + "2";
    ParseRealUnsigned(s[1..]);
    ParseRealNegative(s);
  }

  lemma SolanaChangeCastParts()
    ensures ParseReal("5" + "." + "0") == Some(5.0)
  {
    assert Scaled(5, 0) == "5" && Scaled(0, 0) == "0";
    CastScaledFixed(5, 0, 0, 0);
  }

  /** The solana 24-hour change text casts exactly. */
  lemma SolanaChangeCast()
    ensures ParseReal("5.0") == Some(5.0)
  {
    SolanaChangeCastParts();
    assert "5.0" == "5" + "." + "0";
  }

  /** The bitcoin fallback record refines to its row. */
  lemma {:induction false} BitcoinRefines(now: int)
    ensures Silver.RefineRow(FallbackRecords()[0], now) == Success(FallbackRefined(now)[0])
  {
    var r := Asset("bitcoin", "BTC", "Bitcoin", "65000.50", "1200000000000", "2.5");
    assert FallbackRecords()[0] == r;
    BitcoinPriceCast();
    BitcoinCapCast();
    BitcoinChangeCast();
    assert Silver.CastFloat(Silver.Column(r, "priceUsd")) == Success(Some(65000.5));
    assert Silver.CastFloat(Silver.Column(r, "marketCapUsd")) == Success(Some(1200000000000.0));
    assert Silver.CastFloat(Silver.Column(r, "changePercent24Hr")) == Success(Some(2.5));
  }

  /** The ethereum fallback record refines to its row. */
  lemma {:induction false} EthereumRefines(now: int)
    ensures Silver.RefineRow(FallbackRecords()[1], now) == Success(FallbackRefined(now)[1])
  {
    var r := Asset("ethereum", "ETH", "Ethereum", "3500.20", "400000000000", "-1.2");
    assert FallbackRecords()[1] == r;
    EthereumPriceCast();
    EthereumCapCast();
    EthereumChangeCast();
    assert Silver.CastFloat(Silver.Column(r, "priceUsd")) == Success(Some(3500.2));
    assert Silver.CastFloat(Silver.Column(r, "marketCapUsd")) == Success(Some(400000000000.0));
    assert Silver.CastFloat(Silver.Column(r, "changePercent24Hr")) == Success(Some(-1.2));
  }

  /** The solana fallback record refines to its row. */
  lemma {:induction false} SolanaRefines(now: int)
    ensures Silver.RefineRow(FallbackRecords()[2], now) == Success(FallbackRefined(now)[2])
  {
    var r := Asset("solana", "SOL", "Solana", "140.00", "60000000000", "5.0");
    assert FallbackRecords()[2] == r;
    SolanaPriceCast();
    SolanaCapCast();
    SolanaChangeCast();
    assert Silver.CastFloat(Silver.Column(r, "priceUsd")) == Success(Some(140.0));
    assert Silver.CastFloat(Silver.Column(r, "marketCapUsd")) == Success(Some(60000000000.0));
    assert Silver.CastFloat(Silver.Column(r, "changePercent24Hr")) == Success(Some(5.0));
  }

  /** Three records that each refine, refine together, in order. */
  lemma {:induction false} RefineThree(r0: Record, r1: Record, r2: Record, now: int)
    requires Silver.RefineRow(r0, now).Success?
    requires Silver.RefineRow(r1, now).Success?
    requires Silver.RefineRow(r2, now).Success?
    ensures Silver.RefineRows([r0, r1, r2], now) == Success(
      [Silver.RefineRow(r0, now).value, Silver.RefineRow(r1, now).value, Silver.RefineRow(r2, now).value])
  {
    var recs := [r0, r1, r2];
    var w := [Silver.RefineRow(r0, now).value, Silver.RefineRow(r1, now).value, Silver.RefineRow(r2, now).value];
    assert forall i :: 0 <= i < 3 ==> Silver.RefineRow(recs[i], now) == Success(w[i]);
    var out := Silver.RefineRows(recs, now);
    assert out.Success?;
    assert forall i :: 0 <= i < 3 ==> out.value[i] == w[i];
    assert out.value == w;
  }

  /**
   * Refining a staging table that holds exactly the fallback records casts
   * every numeric text to its exact value.
   */
  lemma {:induction false} FallbackRefines(now: int)
    ensures Silver.Refine(Bronze.Table(AssetFields, FallbackRecords()), now) == Success(FallbackRefined(now))
  {
    var recs := FallbackRecords();
    BitcoinRefines(now);
    EthereumRefines(now);
    SolanaRefines(now);
    assert recs == [recs[0], recs[1], recs[2]];
    RefineThree(recs[0], recs[1], recs[2], now);
  }

  /** The expected summary of the fallback snapshot: two assets above 1000, one below. */
  function FallbackSummary(): (summary: seq<Gold.SummaryRow>) {
    [ Gold.SummaryRow(Gold.AltoValor, 2, Some(34250.35)),
      Gold.SummaryRow(Gold.BaixoValor, 1, Some(140.0)) ]
  }

  /** Filtering a three-row table. */
  lemma {:induction false} InCategoryThree(a: Silver.Row, b: Silver.Row, c: Silver.Row, k: Gold.Category)
    ensures Gold.InCategory([a, b, c], k)
      == (if Gold.Categorize(a.priceUsd) == k then [a] else [])
       + (if Gold.Categorize(b.priceUsd) == k then [b] else [])
       + (if Gold.Categorize(c.priceUsd) == k then [c] else [])
  {
    assert Gold.InCategory([], k) == [];
    assert [c][1..] == [];
    assert Gold.InCategory([c], k) == (if Gold.Categorize(c.priceUsd) == k then [c] else []);
    assert [b, c][1..] == [c];
    assert [a, b, c][1..] == [b, c];
  }

  /** The aggregates of a group of two identified, priced rows. */
  lemma {:induction false} AggregatesOfTwo(a: Silver.Row, b: Silver.Row)
    requires a.assetId.Some? && b.assetId.Some? && a.priceUsd.Some? && b.priceUsd.Some?
    ensures Gold.CountIds([a, b]) == 2
    ensures Gold.Mean(Gold.Prices([a, b])) == Some((a.priceUsd.value + b.priceUsd.value) / 2.0)
  {
    assert [b][1..] == [] && [a, b][1..] == [b];
    assert Gold.Prices([]) == [] && Gold.CountIds([]) == 0;
    assert Gold.Prices([b]) == [b.priceUsd.value];
    assert Gold.CountIds([b]) == 1;
    var ps := [a.priceUsd.value, b.priceUsd.value];
    assert Gold.Prices([a, b]) == ps;
    assert ps[1..] == [b.priceUsd.value] && ps[1..][1..] == [];
    assert Gold.Sum([]) == 0.0;
    assert Gold.Sum(ps[1..]) == b.priceUsd.value;
  }

  /** The aggregates of a group of one identified, priced row. */
  lemma {:induction false} AggregatesOfOne(c: Silver.Row)
    requires c.assetId.Some? && c.priceUsd.Some?
    ensures Gold.CountIds([c]) == 1
    ensures Gold.Mean(Gold.Prices([c])) == Some(c.priceUsd.value)
  {
    assert [c][1..] == [];
    assert Gold.Prices([]) == [] && Gold.CountIds([]) == 0;
    assert Gold.Prices([c]) == [c.priceUsd.value];
    assert Gold.Sum([]) == 0.0;
  }

  /** Two rows priced above the threshold followed by one at or below it: the high group is the first two. */
  lemma {:induction false} HighGroupOfThree(a: Silver.Row, b: Silver.Row, c: Silver.Row)
    requires a.priceUsd.Some? && b.priceUsd.Some? && c.priceUsd.Some?
    requires a.priceUsd.value > Gold.Threshold && b.priceUsd.value > Gold.Threshold
    requires c.priceUsd.value <= Gold.Threshold
    ensures Gold.InCategory([a, b, c], Gold.AltoValor) == [a, b]
  {
    InCategoryThree(a, b, c, Gold.AltoValor);
  }

  /** Two rows priced above the threshold followed by one at or below it: the low group is the last one. */
  lemma {:induction false} LowGroupOfThree(a: Silver.Row, b: Silver.Row, c: Silver.Row)
    requires a.priceUsd.Some? && b.priceUsd.Some? && c.priceUsd.Some?
    requires a.priceUsd.value > Gold.Threshold && b.priceUsd.value > Gold.Threshold
    requires c.priceUsd.value <= Gold.Threshold
    ensures Gold.InCategory([a, b, c], Gold.BaixoValor) == [c]
  {
    InCategoryThree(a, b, c, Gold.BaixoValor);
  }

  /** The high group of two identified rows above the threshold and one at or below it. */
  lemma {:induction false} HighSummaryOfThree(a: Silver.Row, b: Silver.Row, c: Silver.Row)
    requires a.assetId.Some? && b.assetId.Some?
    requires a.priceUsd.Some? && b.priceUsd.Some? && c.priceUsd.Some?
    requires a.priceUsd.value > Gold.Threshold && b.priceUsd.value > Gold.Threshold
    requires c.priceUsd.value <= Gold.Threshold
    ensures |Gold.InCategory([a, b, c], Gold.AltoValor)| > 0
    ensures Gold.Summary([a, b, c], Gold.AltoValor)
      == Gold.SummaryRow(Gold.AltoValor, 2, Some(Gold.Round2((a.priceUsd.value + b.priceUsd.value) / 2.0)))
  {
    HighGroupOfThree(a, b, c);
    AggregatesOfTwo(a, b);
  }

  /** The low group of two rows above the threshold and one identified row at or below it. */
  lemma {:induction false} LowSummaryOfThree(a: Silver.Row, b: Silver.Row, c: Silver.Row)
    requires c.assetId.Some?
    requires a.priceUsd.Some? && b.priceUsd.Some? && c.priceUsd.Some?
    requires a.priceUsd.value > Gold.Threshold && b.priceUsd.value > Gold.Threshold
    requires c.priceUsd.value <= Gold.Threshold
    ensures |Gold.InCategory([a, b, c], Gold.BaixoValor)| > 0
    ensures Gold.Summary([a, b, c], Gold.BaixoValor) == Gold.SummaryRow(Gold.BaixoValor, 1, Some(Gold.Round2(c.priceUsd.value)))
  {
    LowGroupOfThree(a, b, c);
    AggregatesOfOne(c);
  }

  /** Two identified rows priced above the threshold followed by one identified row at or below it. */
  lemma {:induction false} GroupsTwoHighOneLow(a: Silver.Row, b: Silver.Row, c: Silver.Row)
    requires a.assetId.Some? && b.assetId.Some? && c.assetId.Some?
    requires a.priceUsd.Some? && b.priceUsd.Some? && c.priceUsd.Some?
    requires a.priceUsd.value > Gold.Threshold && b.priceUsd.value > Gold.Threshold
    requires c.priceUsd.value <= Gold.Threshold
    ensures Gold.Groups([a, b, c]) == [
      Gold.SummaryRow(Gold.AltoValor, 2, Some(Gold.Round2((a.priceUsd.value + b.priceUsd.value) / 2.0))),
      Gold.SummaryRow(Gold.BaixoValor, 1, Some(Gold.Round2(c.priceUsd.value)))]
  {
    HighSummaryOfThree(a, b, c);
    LowSummaryOfThree(a, b, c);
  }

  /**
   * Summarising the fallback rows: bitcoin and ethereum are "Alto Valor" with
   * mean (65000.5 + 3500.2) / 2, solana is "Baixo Valor", the higher mean first.
   */
  lemma {:induction false} FallbackSummarizes(now: int)
    ensures Gold.Summarize(FallbackRefined(now)) == FallbackSummary()
  {
    var rows := FallbackRefined(now);
    Gold.SummarizeListsHighFirst(rows);
    GroupsTwoHighOneLow(rows[0], rows[1], rows[2]);
    assert rows == [rows[0], rows[1], rows[2]];
    assert (65000.5 + 3500.2) / 2.0 == 34250.35;
    Gold.RoundKeepsCents(34250.35);
    Gold.RoundKeepsCents(140.0);
  }

  /** The staging table created from the fallback batch has exactly the six asset fields as columns. */
  lemma FallbackCreatesAssetTable()
    ensures Bronze.Append(Bronze.Absent, FallbackRecords()) == Bronze.Table(AssetFields, FallbackRecords())
  {
    var batch := FallbackRecords();
    Bronze.CreateKeepsEverything(batch);
    Bronze.InferUniformColumns(batch, AssetFields);
  }

  /**
   * From an empty warehouse, a stored document that reads back as the fallback
   * records loads, refines and summarises with every stage succeeding.
   */
  lemma {:induction false} FallbackStagesFromEmpty(lake: Lake, uri: Option<string>, env: Pipeline.Env)
    requires Bronze.Truthy(uri) && uri.value in lake
    requires Parse(lake[uri.value], env.decode) == Some(FallbackRecords())
    requires env.bronzeJob.Completes? && env.silverJob.Completes? && env.goldJob.Completes?
    ensures Pipeline.RunStages(Pipeline.Warehouse(Bronze.Absent, Silver.Absent, Gold.Absent), lake, uri, env)
      == Pipeline.Stages(
           Pipeline.Warehouse(
             Bronze.Table(AssetFields, FallbackRecords()),
             Silver.Table(FallbackRefined(env.queryTime)),
             Gold.Table(FallbackSummary())),
           [Pipeline.StageRun(Pipeline.BronzeLoad, Succeeded),
            Pipeline.StageRun(Pipeline.SilverRefine, Succeeded),
            Pipeline.StageRun(Pipeline.GoldAggregate, Succeeded)])
  {
    FallbackCreatesAssetTable();
    FallbackRefines(env.queryTime);
    FallbackSummarizes(env.queryTime);
    Pipeline.StagesSucceed(Pipeline.Warehouse(Bronze.Absent, Silver.Absent, Gold.Absent), lake, uri, env, FallbackRecords());
  }

  /**
   * With the feed down and every collaborator otherwise working, a first run
   * stores the three synthetic records, loads them as a new staging table,
   * refines them exactly and summarises them as two "Alto Valor" assets
   * averaging 34250.35 ahead of one "Baixo Valor" asset at 140.
   */
  lemma {:induction false} FeedDownFirstRun(lake: Lake, env: Pipeline.Env)
    requires FetchFailed(env.fetch) && env.upload.Uploaded?
    requires env.bronzeJob.Completes? && env.silverJob.Completes? && env.goldJob.Completes?
    requires OneLineEncoder(env.encode) && Inverts(env.decode, env.encode)
    ensures var r := Pipeline.Run(Pipeline.State(lake, Pipeline.Warehouse(Bronze.Absent, Silver.Absent, Gold.Absent)), env);
      && r.state.warehouse == Pipeline.Warehouse(
           Bronze.Table(AssetFields, FallbackRecords()),
           Silver.Table(FallbackRefined(env.queryTime)),
           Gold.Table(FallbackSummary()))
      && r.report.stages == [
           Pipeline.StageRun(Pipeline.BronzeLoad, Succeeded),
           Pipeline.StageRun(Pipeline.SilverRefine, Succeeded),
           Pipeline.StageRun(Pipeline.GoldAggregate, Succeeded)]
  {
    var ingested := Ingest(lake, env.fetch, env.upload, env.timestamp, env.encode);
    var uri := ingested.uri;
    assert SelectRecords(env.fetch) == FallbackRecords();
    ParseRender(FallbackRecords(), env.encode, env.decode);
    assert Parse(ingested.lake[uri.value], env.decode) == Some(FallbackRecords());
    FallbackStagesFromEmpty(ingested.lake, uri, env);
  }
}

=== FILE: gold.dfy ===
/**
 * Gold layer (`camada_gold`): `CREATE OR REPLACE TABLE GLD_market_summary` —
 * the refined rows grouped into two price categories, with a count and an
 * average price per category, ordered by that average, highest first.
 */
module Gold {
  import opened Wrappers
  import opened Jobs
  import Silver

  /** The two values of the `CASE` expression. */
  datatype Category = AltoValor | BaixoValor

  /** The category's text in the summary table. */
  function Label(c: Category): (text: string) {
    match c
    case AltoValor => "Alto Valor"
    case BaixoValor => "Baixo Valor"
  }

  const Threshold: real := 1000.0

  /**
   * `CASE WHEN price_usd > 1000 THEN 'Alto Valor' ELSE 'Baixo Valor' END`.
   * The comparison is strict, and a NULL price makes it NULL, so the ELSE arm applies.
   */
  function Categorize(price: Option<real>): (c: Category)
    ensures c == AltoValor <==> price.Some? && price.value > Threshold
    ensures c == BaixoValor <==> price.None? || price.value <= Threshold
  {
    if price.Some? && price.value > Threshold then AltoValor else BaixoValor
  }

  /** The refined rows that fall in category `c`, in table order. */
  function InCategory(rows: seq<Silver.Row>, c: Category): (members: seq<Silver.Row>)
    ensures |members| <= |rows|
    ensures forall x :: x in members <==> x in rows && Categorize(x.priceUsd) == c
  {
    if |rows| == 0 then []
    else
      var rest := InCategory(rows[1..], c);
      assert forall x :: x in rows <==> x == rows[0] || x in rows[1..];
      if Categorize(rows[0].priceUsd) == c then [rows[0]] + rest else rest
  }

  /**
   * Filtering keeps duplicates: a row occurs in its own category as often as
   * in the table, and not at all in the other.
   */
  lemma {:induction false} InCategoryMultiplicity(rows: seq<Silver.Row>, c: Category, x: Silver.Row)
    ensures multiset(InCategory(rows, c))[x] == if Categorize(x.priceUsd) == c then multiset(rows)[x] else 0
  {
    if |rows| > 0 {
      InCategoryMultiplicity(rows[1..], c, x);
      assert rows == [rows[0]] + rows[1..];
      assert multiset(rows) == multiset([rows[0]]) + multiset(rows[1..]);
    }
  }

  /** `COUNT(asset_id)`: rows whose `asset_id` is not NULL. */
  function CountIds(rows: seq<Silver.Row>): (n: nat)
    ensures n <= |rows|
    ensures n == |rows| <==> forall i :: 0 <= i < |rows| ==> rows[i].assetId.Some?
  {
    if |rows| == 0 then 0
    else (if rows[0].assetId.Some? then 1 else 0) + CountIds(rows[1..])
  }

  /** The non-NULL prices, which are what `AVG(price_usd)` averages. */
  function Prices(rows: seq<Silver.Row>): (ps: seq<real>)
    ensures |ps| <= |rows|
    ensures forall p :: p in ps <==> exists x :: x in rows && x.priceUsd == Some(p)
  {
    if |rows| == 0 then []
    else
      var rest := Prices(rows[1..]);
      assert forall x :: x in rows <==> x == rows[0] || x in rows[1..];
      match rows[0].priceUsd
      case Some(p) => [p] + rest
      case None => rest
  }

  /** `AVG` sees every non-NULL price, duplicates included, in table order. */
  lemma {:induction false} PricesAppend(a: seq<Silver.Row>, b: seq<Silver.Row>)
    ensures Prices(a + b) == Prices(a) + Prices(b)
    decreases |a|
  {
    if |a| > 0 {
      assert (a + b)[1..] == a[1..] + b;
      PricesAppend(a[1..], b);
    } else {
      assert a + b == b;
    }
  }

  /** One row contributes its price when it has one, and nothing when it is NULL. */
  lemma {:induction false} PricesOne(x: Silver.Row)
    ensures Prices([x]) == if x.priceUsd.Some? then [x.priceUsd.value] else []
  {
    assert [x][1..] == [];
  }

  /** `COUNT(asset_id)` over two stretches of rows is the sum of the two counts. */
  lemma {:induction false} CountIdsAppend(a: seq<Silver.Row>, b: seq<Silver.Row>)
    ensures CountIds(a + b) == CountIds(a) + CountIds(b)
    decreases |a|
  {
    if |a| > 0 {
      assert (a + b)[1..] == a[1..] + b;
      CountIdsAppend(a[1..], b);
    } else {
      assert a + b == b;
    }
  }

  /** One row counts once when its `asset_id` is present and not at all when it is NULL. */
  lemma {:induction false} CountIdsOne(x: Silver.Row)
    ensures CountIds([x]) == if x.assetId.Some? then 1 else 0
  {
    assert [x][1..] == [];
  }

  function Sum(xs: seq<real>): (total: real) {
    if |xs| == 0 then 0.0 else xs[0] + Sum(xs[1..])
  }

  /** `AVG`: NULL over no values, the exact mean otherwise. */
  function Mean(xs: seq<real>): (m: Option<real>)
    ensures m.None? <==> |xs| == 0
    ensures m.Some? ==> m.value * |xs| as real == Sum(xs)
  {
    if |xs| == 0 then None else Some(Sum(xs) / |xs| as real)
  }

  /** `x` is a whole number of hundredths. */
  predicate Cents(x: real) {
    (x * 100.0).Floor as real == x * 100.0
  }

  /** The whole number nearest to `z >= 0`, halves up. */
  function NearestUp(z: real): (n: int)
    requires z >= 0.0
    ensures n >= 0
    ensures z - 0.5 < n as real <= z + 0.5
  {
    (z + 0.5).Floor
  }

  /** A whole number of hundredths is whole hundredths. */
  lemma CentsOf(n: int)
    ensures Cents(n as real / 100.0)
  {
    assert (n as real / 100.0) * 100.0 == n as real;
  }

  /** `ROUND(x, 2)`: to the nearest hundredth, halves away from zero. */
  function Round2(x: real): (y: real)
    ensures Cents(y)
    ensures x - 0.005 <= y <= x + 0.005
    ensures x >= 0.0 ==> x - 0.005 < y
    ensures x < 0.0 ==> y < x + 0.005
  {
    if x >= 0.0 then
      var n := NearestUp(x * 100.0);
      CentsOf(n);
      n as real / 100.0
    else
      var n := NearestUp((0.0 - x) * 100.0);
      CentsOf(0 - n);
      (0 - n) as real / 100.0
  }

  /** `ROUND(AVG(...), 2)`: NULL over no values, the rounded mean otherwise. */
  function RoundedMean(xs: seq<real>): (m: Option<real>)
    ensures m.None? <==> |xs| == 0
    ensures m.Some? ==> Cents(m.value) && m == Some(Round2(Mean(xs).value))
  {
    match Mean(xs)
    case None => None
    case Some(v) => Some(Round2(v))
  }

  /** One row of the summary table. */
  datatype SummaryRow = SummaryRow(category: Category, count: nat, averagePrice: Option<real>)

  /** The aggregates of one category's group. */
  function Summary(rows: seq<Silver.Row>, c: Category): (row: SummaryRow)
    ensures row.category == c
    ensures row.count == CountIds(InCategory(rows, c)) <= |InCategory(rows, c)| <= |rows|
    ensures row.averagePrice == RoundedMean(Prices(InCategory(rows, c)))
  {
    var members := InCategory(rows, c);
    SummaryRow(c, CountIds(members), RoundedMean(Prices(members)))
  }

  /** `GROUP BY 1`: one row per category that has at least one refined row. */
  function Groups(rows: seq<Silver.Row>): (groups: seq<SummaryRow>)
    ensures |groups| <= 2
  {
    (if |InCategory(rows, AltoValor)| > 0 then [Summary(rows, AltoValor)] else [])
    + (if |InCategory(rows, BaixoValor)| > 0 then [Summary(rows, BaixoValor)] else [])
  }

  /** Each group is its category's aggregate, and only categories with rows form a group. */
  lemma {:induction false} GroupsAreSummaries(rows: seq<Silver.Row>)
    ensures forall i :: 0 <= i < |Groups(rows)| ==>
      Groups(rows)[i] == Summary(rows, Groups(rows)[i].category) && |InCategory(rows, Groups(rows)[i].category)| > 0
  {
  }

  /** `ORDER BY 3 DESC`: a higher average first, NULL averages last. */
  predicate RanksBefore(a: SummaryRow, b: SummaryRow) {
    b.averagePrice.None? || (a.averagePrice.Some? && a.averagePrice.value >= b.averagePrice.value)
  }

  predicate Descending(rs: seq<SummaryRow>) {
    forall i, j :: 0 <= i < j < |rs| ==> RanksBefore(rs[i], rs[j])
  }

  /** A row that ranks before every row of a descending sequence can lead it. */
  lemma {:induction false} PrependDescending(h: SummaryRow, rest: seq<SummaryRow>)
    requires Descending(rest)
    requires forall y :: y in rest ==> RanksBefore(h, y)
    ensures Descending([h] + rest)
  {
    var s := [h] + rest;
    forall i, j | 0 <= i < j < |s| ensures RanksBefore(s[i], s[j]) {
      if i == 0 {
        assert s[j] == rest[j - 1] && s[j] in rest;
      } else {
        assert s[i] == rest[i - 1] && s[j] == rest[j - 1];
      }
    }
  }

  /** A row ranking before the head of a descending sequence ranks before all of it. */
  lemma {:induction false} RanksBeforeHead(x: SummaryRow, rs: seq<SummaryRow>)
    requires |rs| >= 1 && Descending(rs) && RanksBefore(x, rs[0])
    ensures forall y :: y in rs ==> RanksBefore(x, y)
  {
    forall y | y in rs ensures RanksBefore(x, y) {
      var k :| 0 <= k < |rs| && rs[k] == y;
      if k > 0 { assert RanksBefore(rs[0], rs[k]); }
    }
  }

  /** Dropping the head of a descending sequence keeps it descending. */
  lemma {:induction false} DescendingTail(rs: seq<SummaryRow>)
    requires |rs| >= 1 && Descending(rs)
    ensures Descending(rs[1..])
    ensures forall y :: y in rs[1..] ==> RanksBefore(rs[0], y)
  {
    var tail := rs[1..];
    forall i, j | 0 <= i < j < |tail| ensures RanksBefore(tail[i], tail[j]) {
      assert tail[i] == rs[i + 1] && tail[j] == rs[j + 1];
    }
    forall y | y in tail ensures RanksBefore(rs[0], y) {
      var k :| 0 <= k < |tail| && tail[k] == y;
      assert rs[k + 1] == y;
    }
  }

  /** Places `x` in front of the first row it ranks before. */
  function Insert(x: SummaryRow, rs: seq<SummaryRow>): (out: seq<SummaryRow>)
    requires Descending(rs)
    ensures multiset(out) == multiset(rs) + multiset{x}
    ensures Descending(out)
  {
    if |rs| == 0 then [x]
    else if RanksBefore(x, rs[0]) then
      RanksBeforeHead(x, rs);
      PrependDescending(x, rs);
      [x] + rs
    else
      var tail := rs[1..];
      assert rs == [rs[0]] + tail;
      DescendingTail(rs);
      var rest := Insert(x, tail);
      assert forall y :: y in rest ==> RanksBefore(rs[0], y) by {
        forall y | y in rest ensures RanksBefore(rs[0], y) {
          assert y in multiset(rest);
          if y != x {
            assert y in multiset(tail);
          }
        }
      }
      PrependDescending(rs[0], rest);
      [rs[0]] + rest
  }

  /** Sorts the summary rows into `ORDER BY ... DESC` order. */
  function SortDescending(rs: seq<SummaryRow>): (out: seq<SummaryRow>)
    ensures multiset(out) == multiset(rs)
    ensures Descending(out)
  {
    if |rs| == 0 then []
    else
      assert rs == [rs[0]] + rs[1..];
      Insert(rs[0], SortDescending(rs[1..]))
  }

  /** The whole gold query over the refined rows. */
  function Summarize(rows: seq<Silver.Row>): (out: seq<SummaryRow>)
    ensures Descending(out)
    ensures multiset(out) == multiset(Groups(rows))
  {
    SortDescending(Groups(rows))
  }

  /** The summary table: not yet created, or its rows. */
  datatype Table = Absent | Table(rows: seq<SummaryRow>)

  /** The summary table after a stage and the stage's status. */
  datatype Aggregated = Aggregated(table: Table, status: Status)

  /** One gold stage: it needs the refined table; replace on success, keep on failure. */
  function AggregateGold(s: Silver.Table, g: Table, job: JobOutcome): (r: Aggregated)
    ensures r.status != Skipped
    ensures r.status == Failed ==> r.table == g
    ensures r.status == Succeeded <==> job.Completes? && s.Table?
    ensures r.status == Succeeded ==> r.table == Table(Summarize(s.rows))
  {
    if job.Raises? || s.Absent? then Aggregated(g, Failed)
    else Aggregated(Table(Summarize(s.rows)), Succeeded)
  }

  // ---------------------------------------------------------------------------
  // Properties of the summary

  lemma {:induction false} SumAbove(xs: seq<real>, c: real)
    requires |xs| >= 1
    requires forall i :: 0 <= i < |xs| ==> xs[i] > c
    ensures Sum(xs) > c * |xs| as real
  {
    if |xs| > 1 {
      SumAbove(xs[1..], c);
    }
  }

  lemma {:induction false} SumAtMost(xs: seq<real>, c: real)
    requires forall i :: 0 <= i < |xs| ==> xs[i] <= c
    ensures Sum(xs) <= c * |xs| as real
  {
    if |xs| > 0 {
      SumAtMost(xs[1..], c);
    }
  }

  /** Every value above `c` puts the mean above `c`. */
  lemma {:induction false} MeanAbove(xs: seq<real>, c: real)
    requires |xs| >= 1
    requires forall i :: 0 <= i < |xs| ==> xs[i] > c
    ensures Mean(xs).Some? && Mean(xs).value > c
  {
    SumAbove(xs, c);
    var n := |xs| as real;
    assert Sum(xs) / n > c by {
      assert Sum(xs) > c * n;
    }
  }

  /** Every value at most `c` keeps the mean at most `c`. */
  lemma {:induction false} MeanAtMost(xs: seq<real>, c: real)
    requires forall i :: 0 <= i < |xs| ==> xs[i] <= c
    ensures Mean(xs).Some? ==> Mean(xs).value <= c
  {
    SumAtMost(xs, c);
  }

  /** Rows in the high category all have a price, so its prices are one per row. */
  lemma {:induction false} AltoPricesPresent(rows: seq<Silver.Row>)
    requires forall x :: x in rows ==> Categorize(x.priceUsd) == AltoValor
    ensures |Prices(rows)| == |rows|
  {
    if |rows| > 0 {
      assert forall x :: x in rows[1..] ==> x in rows;
      AltoPricesPresent(rows[1..]);
    }
  }

  /** Rounding leaves a value that is already whole hundredths unchanged. */
  lemma RoundKeepsCents(x: real)
    requires Cents(x)
    ensures Round2(x) == x
  {
    var k := (x * 100.0).Floor;
    if x >= 0.0 {
      assert NearestUp(x * 100.0) == k;
    } else {
      assert NearestUp((0.0 - x) * 100.0) == 0 - k;
    }
  }

  /** Two whole-hundredths values less than a hundredth apart are equal. */
  lemma CentsApart(a: real, b: real)
    requires Cents(a) && Cents(b)
    requires a - 0.01 < b < a + 0.01
    ensures a == b
  {
    var ka, kb := (a * 100.0).Floor, (b * 100.0).Floor;
    assert ka - 1 < kb < ka + 1;
  }

  /**
   * The rounding rule pins the result down: the only whole-hundredths value
   * within half a hundredth of `x`, taking the half-way point away from zero,
   * is `Round2(x)`.
   */
  lemma RoundUnique(x: real, y: real)
    requires Cents(y)
    requires x >= 0.0 ==> x - 0.005 < y <= x + 0.005
    requires x < 0.0 ==> x - 0.005 <= y < x + 0.005
    ensures y == Round2(x)
  {
    CentsApart(y, Round2(x));
  }

  /** A value halfway between two hundredths rounds away from zero. */
  lemma RoundHalvesAwayFromZero(k: int)
    ensures k >= 0 ==> Round2((2 * k + 1) as real / 200.0) == (k + 1) as real / 100.0
    ensures k < 0 ==> Round2((2 * k + 1) as real / 200.0) == k as real / 100.0
  {
    var x := (2 * k + 1) as real / 200.0;
    if k >= 0 {
      CentsOf(k + 1);
      RoundUnique(x, (k + 1) as real / 100.0);
    } else {
      CentsOf(k);
      RoundUnique(x, k as real / 100.0);
    }
  }

  /**
   * Rounding can make the two averages equal: a row priced 1000.001 (high) and
   * one priced 1000 (low) both average 1000.00, so the `ORDER BY` has a tie.
   */
  lemma {:induction false} AveragesCanTie(a: Silver.Row, b: Silver.Row)
    requires a.priceUsd == Some(1000.001) && b.priceUsd == Some(1000.0)
    ensures Summary([a, b], AltoValor).averagePrice == Some(1000.0)
    ensures Summary([a, b], BaixoValor).averagePrice == Some(1000.0)
  {
    assert [a, b][1..] == [b] && [b][1..] == [];
    assert InCategory([], AltoValor) == [] && InCategory([], BaixoValor) == [];
    assert InCategory([a, b], AltoValor) == [a];
    assert InCategory([a, b], BaixoValor) == [b];
    assert [a][1..] == [];
    assert Prices([]) == [] && Sum([]) == 0.0;
    assert Prices([a]) == [1000.001] && Prices([b]) == [1000.0];
    assert NearestUp(1000.001 * 100.0) == 100000;
    RoundKeepsCents(1000.0);
  }

  /** A value above the threshold rounds to at least the threshold. */
  lemma RoundAboveThreshold(x: real)
    requires x > Threshold
    ensures Round2(x) >= Threshold
  {
    var y := Round2(x);
    assert (y * 100.0).Floor > 99999;
  }

  /** A value at most the threshold rounds to at most the threshold. */
  lemma RoundAtMostThreshold(x: real)
    requires x <= Threshold
    ensures Round2(x) <= Threshold
  {
    var y := Round2(x);
    assert (y * 100.0).Floor < 100001;
  }

  /**
   * The high category's exact mean is above the threshold and the low
   * category's is at most the threshold or NULL. After rounding to hundredths
   * the high average is at least the threshold and the low one at most it, so
   * the high row never ranks below the low row (they can tie at 1000.00).
   */
  lemma {:induction false} CategoryAverages(rows: seq<Silver.Row>)
    ensures var m := Mean(Prices(InCategory(rows, AltoValor)));
      |InCategory(rows, AltoValor)| > 0 ==> m.Some? && m.value > Threshold
    ensures var m := Mean(Prices(InCategory(rows, BaixoValor)));
      m.Some? ==> m.value <= Threshold
    ensures |InCategory(rows, AltoValor)| > 0 ==>
      Summary(rows, AltoValor).averagePrice.Some? && Summary(rows, AltoValor).averagePrice.value >= Threshold
    ensures var avg := Summary(rows, BaixoValor).averagePrice; avg.Some? ==> avg.value <= Threshold
  {
    var alto := InCategory(rows, AltoValor);
    var altoPrices := Prices(alto);
    if |alto| > 0 {
      AltoPricesPresent(alto);
      assert forall i :: 0 <= i < |altoPrices| ==> altoPrices[i] > Threshold by {
        forall i | 0 <= i < |altoPrices| ensures altoPrices[i] > Threshold {
          assert altoPrices[i] in altoPrices;
          var x :| x in alto && x.priceUsd == Some(altoPrices[i]);
          assert Categorize(x.priceUsd) == AltoValor;
        }
      }
      MeanAbove(altoPrices, Threshold);
      RoundAboveThreshold(Mean(altoPrices).value);
    }
    var baixoPrices := Prices(InCategory(rows, BaixoValor));
    assert forall i :: 0 <= i < |baixoPrices| ==> baixoPrices[i] <= Threshold by {
      forall i | 0 <= i < |baixoPrices| ensures baixoPrices[i] <= Threshold {
        assert baixoPrices[i] in baixoPrices;
        var x :| x in InCategory(rows, BaixoValor) && x.priceUsd == Some(baixoPrices[i]);
        assert Categorize(x.priceUsd) == BaixoValor;
      }
    }
    MeanAtMost(baixoPrices, Threshold);
    if |baixoPrices| > 0 {
      RoundAtMostThreshold(Mean(baixoPrices).value);
    }
  }

  /** Sorting rows that are already in order leaves them where they are. */
  lemma {:induction false} SortKeepsOrdered(rs: seq<SummaryRow>)
    requires Descending(rs)
    ensures SortDescending(rs) == rs
  {
    if |rs| > 0 {
      var tail := rs[1..];
      assert Descending(tail) by {
        forall i, j | 0 <= i < j < |tail| ensures RanksBefore(tail[i], tail[j]) {
          assert tail[i] == rs[i + 1] && tail[j] == rs[j + 1];
        }
      }
      SortKeepsOrdered(tail);
      if |tail| > 0 {
        assert RanksBefore(rs[0], rs[1]);
      }
      assert [rs[0]] + tail == rs;
    }
  }

  /** The `ORDER BY` puts "Alto Valor" before "Baixo Valor", a tie included. */
  lemma {:induction false} SummarizeListsHighFirst(rows: seq<Silver.Row>)
    ensures Summarize(rows) == Groups(rows)
  {
    CategoryAverages(rows);
    SortKeepsOrdered(Groups(rows));
  }

  /** The two categories split the non-NULL ids between them. */
  lemma {:induction false} CountsPartition(rows: seq<Silver.Row>)
    ensures CountIds(InCategory(rows, AltoValor)) + CountIds(InCategory(rows, BaixoValor)) == CountIds(rows)
  {
    if |rows| > 0 {
      CountsPartition(rows[1..]);
    }
  }

  /** Some summary row is for category `c`. */
  predicate Lists(out: seq<SummaryRow>, c: Category) {
    exists i :: 0 <= i < |out| && out[i].category == c
  }

  /** Some refined row falls in category `c`. */
  predicate Occurs(rows: seq<Silver.Row>, c: Category) {
    exists x :: x in rows && Categorize(x.priceUsd) == c
  }

  /** A category has rows exactly when some row falls in it. */
  lemma {:induction false} NonEmptyIffOccurs(rows: seq<Silver.Row>, c: Category)
    ensures |InCategory(rows, c)| > 0 <==> Occurs(rows, c)
  {
    var members := InCategory(rows, c);
    if Occurs(rows, c) {
      var x :| x in rows && Categorize(x.priceUsd) == c;
      assert x in members;
    }
    if |members| > 0 {
      assert members[0] in members;
    }
  }

  /** The groups list a category exactly when it has rows. */
  lemma {:induction false} GroupsListNonEmpty(rows: seq<Silver.Row>, c: Category)
    ensures Lists(Groups(rows), c) <==> |InCategory(rows, c)| > 0
  {
    var g := Groups(rows);
    var high := |InCategory(rows, AltoValor)| > 0;
    var low := |InCategory(rows, BaixoValor)| > 0;
    assert high ==> g[0] == Summary(rows, AltoValor);
    assert low ==> g[if high then 1 else 0] == Summary(rows, BaixoValor);
    assert forall i :: 0 <= i < |g| ==> g[i] == Summary(rows, g[i].category);
    if Lists(g, c) {
      var i :| 0 <= i < |g| && g[i].category == c;
      assert g[i] == Summary(rows, c);
    }
  }

  /** The groups list exactly the categories that occur among the rows. */
  lemma {:induction false} GroupsListOccurring(rows: seq<Silver.Row>)
    ensures forall c :: Lists(Groups(rows), c) <==> Occurs(rows, c)
  {
    forall c ensures Lists(Groups(rows), c) <==> Occurs(rows, c) {
      NonEmptyIffOccurs(rows, c);
      GroupsListNonEmpty(rows, c);
    }
  }

  /** The groups' counts add up to the rows' non-NULL ids, and no rows means no groups. */
  lemma {:induction false} GroupsCount(rows: seq<Silver.Row>)
    ensures var out := Groups(rows);
      && |out| <= 2
      && (|out| == 2 ==> out[0].category == AltoValor && out[1].category == BaixoValor)
      && (|out| == 2 ==> out[0].count + out[1].count == CountIds(rows))
      && (|out| == 1 ==> out[0].count == CountIds(rows))
      && (|out| == 0 <==> |rows| == 0)
  {
    CountsPartition(rows);
    var alto := InCategory(rows, AltoValor);
    var baixo := InCategory(rows, BaixoValor);
    if |rows| > 0 {
      assert rows[0] in rows;
      if Categorize(rows[0].priceUsd) == AltoValor { assert rows[0] in alto; } else { assert rows[0] in baixo; }
    }
  }

  /**
   * Shape of the summary: at most two rows, one per category present among the
   * refined rows and in the order high then low, whose counts add up to the
   * number of refined rows with a non-NULL `asset_id`, averages non-increasing.
   */
  lemma {:induction false} SummaryShape(rows: seq<Silver.Row>)
    ensures var out := Summarize(rows);
      && |out| <= 2
      && (forall c :: Lists(out, c) <==> Occurs(rows, c))
      && (|out| == 2 ==> out[0].category == AltoValor && out[1].category == BaixoValor)
      && (|out| == 2 ==> out[0].count + out[1].count == CountIds(rows))
      && (|out| == 1 ==> out[0].count == CountIds(rows))
      && (|out| == 0 <==> |rows| == 0)
      && Descending(out)
  {
    SummarizeListsHighFirst(rows);
    GroupsListOccurring(rows);
    GroupsCount(rows);
  }

  /** Full replace: a successful stage's table depends only on the refined rows. */
  lemma {:induction false} AggregateReplaces(s: Silver.Table, g1: Table, g2: Table)
    requires AggregateGold(s, g1, Completes).status == Succeeded
    ensures AggregateGold(s, g2, Completes) == AggregateGold(s, g1, Completes)
  {
  }
}

=== FILE: ingestion.dfy ===
/**
 * Ingestion (`ingestao_ndjson`): pick the records to persist, with a fixed
 * synthetic fallback when the feed cannot be read, render them as a
 * newline-delimited document and store it under a timestamp-derived key.
 */
module Ingestion {
  import opened Wrappers
  import opened Decimal
  import opened Records
  import opened Ndjson

  /** The parsed response body. Only a JSON object has a `.get` method. */
  datatype Body =
    | JsonObject(data: Option<seq<Record>>)   // `data` key present or absent
    | NotAnObject                             // an array, string or number at top level

  /** What the feed request produced: it raised (network, timeout, invalid JSON) or parsed. */
  datatype FetchOutcome = Raised | Parsed(body: Body)

  /** What the object-store write did. */
  datatype UploadOutcome = Uploaded | UploadRaised

  /** The object store's bucket, as fully-qualified URI to stored text. */
  type Lake = map<string, string>

  const BucketName: string := "lab-dados-gcp-raw"
  const KeyPrefix: string := "raw/coins_"
  const KeySuffix: string := ".json"

  /** The fetch ends in the exception handler: it raised, or `.get` was called on a non-object. */
  predicate FetchFailed(fetch: FetchOutcome) {
    fetch.Raised? || fetch.body.NotAnObject?
  }

  /** The records to persist for a fetch outcome. */
  function SelectRecords(fetch: FetchOutcome): (records: seq<Record>)
    ensures FetchFailed(fetch) ==> records == FallbackRecords()
    ensures fetch == Parsed(JsonObject(None)) ==> records == []
    ensures forall d :: fetch == Parsed(JsonObject(Some(d))) ==> records == d
  {
    match fetch
    case Raised => FallbackRecords()
    case Parsed(JsonObject(data)) => data.GetOr([])
    case Parsed(NotAnObject) => FallbackRecords()
  }

  /** The object key for a whole-second timestamp. */
  function ObjectKey(ts: int): (key: string)
    ensures |key| >= |KeyPrefix| + |KeySuffix|
    ensures key[..|KeyPrefix|] == KeyPrefix && key[|key| - |KeySuffix|..] == KeySuffix
  {
    KeyPrefix + IntToDecimal(ts) + KeySuffix
  }

  /** The fully-qualified location returned to the caller. */
  function ObjectUri(key: string): (uri: string)
    ensures |uri| > |key|
    ensures uri[|uri| - |key|..] == key
    ensures uri[..|uri| - |key|] == "gs://" + BucketName + "/"
  {
    var prefix := "gs://" + BucketName + "/";
    assert |prefix| > 0;
    assert (prefix + key)[|prefix|..] == key;
    assert (prefix + key)[..|prefix|] == prefix;
    prefix + key
  }

  /** Recovers the timestamp from a key, when the key has the key's shape. */
  function KeyTimestamp(key: string): (ts: Option<int>) {
    if |key| >= |KeyPrefix| + |KeySuffix|
       && key[..|KeyPrefix|] == KeyPrefix
       && key[|key| - |KeySuffix|..] == KeySuffix
    then ParseInt(key[|KeyPrefix|..|key| - |KeySuffix|])
    else None
  }

  /** Reading the timestamp back from a key gives the timestamp it was built from. */
  lemma {:induction false} KeyRoundTrip(ts: int)
    ensures KeyTimestamp(ObjectKey(ts)) == Some(ts)
  {
    var d := IntToDecimal(ts);
    var key := ObjectKey(ts);
    assert key[..|KeyPrefix|] == KeyPrefix;
    assert key[|key| - |KeySuffix|..] == KeySuffix;
    assert key[|KeyPrefix|..|key| - |KeySuffix|] == d;
    IntRoundTrip(ts);
  }

  /** Runs in different seconds write different objects; runs in the same second collide. */
  lemma {:induction false} DistinctTimestampsDistinctUris(a: int, b: int)
    ensures ObjectKey(a) == ObjectKey(b) <==> a == b
    ensures ObjectUri(ObjectKey(a)) == ObjectUri(ObjectKey(b)) <==> a == b
  {
    KeyRoundTrip(a);
    KeyRoundTrip(b);
    var ka, kb := ObjectKey(a), ObjectKey(b);
    if ObjectUri(ka) == ObjectUri(kb) {
      var u := ObjectUri(ka);
      assert |u| - |ka| == |u| - |kb| by {
        assert |"gs://" + BucketName + "/" + ka| == |"gs://" + BucketName + "/"| + |ka|;
      }
    }
  }

  /** The outcome of ingestion: the object store afterwards and the returned location, if any. */
  datatype Ingested = Ingested(lake: Lake, uri: Option<string>)

  /**
   * One ingestion. A failed write returns no location and leaves the store as it
   * was; a successful write stores the rendered records under the timestamp's
   * location, overwriting any object already there, and returns that location.
   */
  function Ingest(lake: Lake, fetch: FetchOutcome, upload: UploadOutcome, ts: int, encode: Encoder): (r: Ingested)
    ensures upload.UploadRaised? ==> r.uri == None && r.lake == lake
    ensures upload.Uploaded? ==> r.uri == Some(ObjectUri(ObjectKey(ts)))
    ensures upload.Uploaded? ==> r.lake.Keys == lake.Keys + {r.uri.value}
    ensures upload.Uploaded? ==> r.lake[r.uri.value] == Render(SelectRecords(fetch), encode)
    ensures forall u :: u in lake && Some(u) != r.uri ==> u in r.lake && r.lake[u] == lake[u]
  {
    var doc := Render(SelectRecords(fetch), encode);
    match upload
    case UploadRaised => Ingested(lake, None)
    case Uploaded =>
      var uri := ObjectUri(ObjectKey(ts));
      Ingested(lake[uri := doc], Some(uri))
  }

  /**
   * Whatever went wrong with the feed, the same three literal records are
   * stored: the document does not depend on which failure occurred.
   */
  lemma {:induction false} FallbackIsDeterministic(f1: FetchOutcome, f2: FetchOutcome, encode: Encoder)
    requires FetchFailed(f1) && FetchFailed(f2)
    ensures SelectRecords(f1) == SelectRecords(f2) == FallbackRecords()
    ensures Render(SelectRecords(f1), encode) == Render(SelectRecords(f2), encode)
    ensures SelectRecords(f1)[0] == Asset("bitcoin", "BTC", "Bitcoin", "65000.50", "1200000000000", "2.5")
    ensures SelectRecords(f1)[1] == Asset("ethereum", "ETH", "Ethereum", "3500.20", "400000000000", "-1.2")
    ensures SelectRecords(f1)[2] == Asset("solana", "SOL", "Solana", "140.00", "60000000000", "5.0")
  {
  }

  /**
   * A body without a `data` key is not a failure: nothing is selected, not the
   * fallback, and a successful write still stores an empty document.
   */
  lemma {:induction false} MissingDataStoresEmptyDocument(lake: Lake, ts: int, encode: Encoder)
    ensures SelectRecords(Parsed(JsonObject(None))) != FallbackRecords()
    ensures var r := Ingest(lake, Parsed(JsonObject(None)), Uploaded, ts, encode);
      r.uri.Some? && r.lake[r.uri.value] == ""
  {
  }
}

=== FILE: jobs.dfy ===
/** Warehouse job outcomes and the status each stage reports. */
module Jobs {

  /**
   * Whether the warehouse itself lets a job finish (service reachable, dataset
   * present, credentials valid). Failures caused by the data are modelled by
   * each stage.
   */
  datatype JobOutcome = Completes | Raises

  /** What happened to a stage: not attempted, done, or its exception swallowed. */
  datatype Status = Skipped | Succeeded | Failed
}

=== FILE: lines.dfy ===
/**
 * Newline-delimited text: Python's `'\n'.join(parts)`, which writes the
 * document, and the warehouse loader's cutting of a NEWLINE_DELIMITED_JSON
 * document into lines, which reads it. A newline-delimited JSON document is
 * the join of one JSON text per record.
 */
module Lines {

  /** Number of line-feed characters in `s`. */
  function Newlines(s: string): (n: nat) {
    multiset(s)['\n']
  }

  /** True when no part contains a raw line feed. */
  predicate AllNewlineFree(parts: seq<string>) {
    forall i :: 0 <= i < |parts| ==> '\n' !in parts[i]
  }

  /** `'\n'.join(parts)`: the parts separated by single line feeds, nothing before or after. */
  function Join(parts: seq<string>): (s: string)
    ensures |parts| == 0 ==> s == ""
  {
    if |parts| == 0 then ""
    else if |parts| == 1 then parts[0]
    else parts[0] + "\n" + Join(parts[1..])
  }

  /**
   * The loader's reading of a document as lines: the maximal newline-free
   * pieces between line feeds. The empty text gives one empty piece; the
   * loader's treatment of an empty document is `Ndjson.Parse`'s.
   */
  function Split(s: string): (parts: seq<string>)
    ensures |parts| >= 1
    ensures AllNewlineFree(parts)
  {
    if |s| == 0 then [""]
    else
      var rest := Split(s[1..]);
      assert s == [s[0]] + s[1..];
      if s[0] == '\n' then [""] + rest
      else [[s[0]] + rest[0]] + rest[1..]
  }

  /** A newline-free part has no line feeds to count. */
  lemma NoNewlines(x: string)
    requires '\n' !in x
    ensures Newlines(x) == 0
  {
  }

  /** Joining newline-free parts adds exactly one line feed between each neighbouring pair. */
  lemma {:induction false} JoinNewlines(parts: seq<string>)
    requires |parts| >= 1 && AllNewlineFree(parts)
    ensures Newlines(Join(parts)) == |parts| - 1
  {
    NoNewlines(parts[0]);
    if |parts| > 1 {
      var tail := parts[1..];
      assert AllNewlineFree(tail) by {
        forall i | 0 <= i < |tail| ensures '\n' !in tail[i] {
          assert tail[i] == parts[i + 1];
        }
      }
      JoinNewlines(tail);
      assert multiset(parts[0] + "\n" + Join(tail)) == multiset(parts[0]) + multiset("\n") + multiset(Join(tail));
    }
  }

  /** Splitting yields one piece more than there are line feeds. */
  lemma {:induction false} SplitNewlines(s: string)
    ensures |Split(s)| == Newlines(s) + 1
  {
    if |s| > 0 {
      SplitNewlines(s[1..]);
      assert s == [s[0]] + s[1..];
      assert multiset(s) == multiset([s[0]]) + multiset(s[1..]);
    }
  }

  /** Joining a leading part onto the join of a non-empty tail puts one line feed between them. */
  lemma {:induction false} JoinCons(x: string, tail: seq<string>)
    requires |tail| >= 1
    ensures Join([x] + tail) == x + "\n" + Join(tail)
  {
    assert ([x] + tail)[1..] == tail;
  }

  /** A newline-free text splits into itself. */
  lemma {:induction false} SplitNewlineFree(x: string)
    requires '\n' !in x
    ensures Split(x) == [x]
  {
    if |x| > 0 {
      assert '\n' !in x[1..] by {
        forall i | 0 <= i < |x[1..]| ensures x[1..][i] != '\n' {
          assert x[1..][i] == x[i + 1];
        }
      }
      SplitNewlineFree(x[1..]);
      assert [x[0]] + x[1..] == x;
    }
  }

  /** Splitting at the first line feed peels off the newline-free prefix. */
  lemma {:induction false} SplitAfterPart(x: string, t: string)
    requires '\n' !in x
    ensures Split(x + "\n" + t) == [x] + Split(t)
  {
    if |x| == 0 {
      assert x + "\n" + t == "\n" + t;
      SplitAtNewline(t);
    } else {
      var u := x[1..] + "\n" + t;
      assert x + "\n" + t == [x[0]] + u;
      assert '\n' !in x[1..] by {
        forall i | 0 <= i < |x[1..]| ensures x[1..][i] != '\n' {
          assert x[1..][i] == x[i + 1];
        }
      }
      SplitAfterPart(x[1..], t);
      SplitOrdinary(x[0], u);
      assert [x[0]] + x[1..] == x;
    }
  }

  /** Splitting the join of newline-free parts gives the parts back, in order. */
  lemma {:induction false} SplitJoin(parts: seq<string>)
    requires |parts| >= 1
    requires AllNewlineFree(parts)
    ensures Split(Join(parts)) == parts
  {
    if |parts| == 1 {
      SplitNewlineFree(parts[0]);
    } else {
      var tail := parts[1..];
      assert AllNewlineFree(tail) by {
        forall i | 0 <= i < |tail| ensures '\n' !in tail[i] {
          assert tail[i] == parts[i + 1];
        }
      }
      SplitJoin(tail);
      SplitAfterPart(parts[0], Join(tail));
      assert [parts[0]] + tail == parts;
    }
  }

  /** Splitting a text that starts with an ordinary character extends the first piece. */
  lemma {:induction false} SplitOrdinary(c: char, t: string)
    requires c != '\n'
    ensures Split([c] + t) == [[c] + Split(t)[0]] + Split(t)[1..]
  {
    assert ([c] + t)[0] == c && ([c] + t)[1..] == t;
  }

  /** Splitting a text that starts with a line feed starts with an empty piece. */
  lemma {:induction false} SplitAtNewline(t: string)
    ensures Split("\n" + t) == [""] + Split(t)
  {
    assert ("\n" + t)[0] == '\n' && ("\n" + t)[1..] == t;
  }

  /** Extending the first part by one character extends the join by that character. */
  lemma {:induction false} JoinExtendFirst(c: char, parts: seq<string>)
    requires |parts| >= 1
    ensures Join([[c] + parts[0]] + parts[1..]) == [c] + Join(parts)
  {
    var head, tail := [c] + parts[0], parts[1..];
    if |parts| == 1 {
      assert [head] + tail == [head];
    } else {
      JoinCons(head, tail);
      JoinCons(parts[0], tail);
      assert [parts[0]] + tail == parts;
      assert head + "\n" + Join(tail) == [c] + (parts[0] + "\n" + Join(tail));
    }
  }

  /** Joining the pieces of any text restores the text: `Split` loses nothing. */
  lemma {:induction false} JoinSplit(s: string)
    ensures Join(Split(s)) == s
  {
    if |s| > 0 {
      var t := s[1..];
      assert s == [s[0]] + t;
      JoinSplit(t);
      if s[0] == '\n' {
        SplitAtNewline(t);
        JoinCons("", Split(t));
      } else {
        SplitOrdinary(s[0], t);
        JoinExtendFirst(s[0], Split(t));
      }
    }
  }

  /** The join starts with the first part's first character. */
  lemma {:induction false} JoinFirst(parts: seq<string>)
    requires |parts| >= 1 && |parts[0]| >= 1
    ensures |Join(parts)| >= 1 && Join(parts)[0] == parts[0][0]
  {
  }

  /** The join ends with the last part's last character. */
  lemma {:induction false} JoinLast(parts: seq<string>)
    requires |parts| >= 1 && |parts[|parts| - 1]| >= 1
    ensures var s := Join(parts); |s| >= 1 && s[|s| - 1] == parts[|parts| - 1][|parts[|parts| - 1]| - 1]
  {
    if |parts| > 1 {
      JoinLast(parts[1..]);
    }
  }
}

=== FILE: ndjson.dfy ===
/**
 * The newline-delimited JSON document format shared by the serializer and the
 * warehouse loader. The JSON encoder and decoder themselves are opaque: the
 * model only states what a JSON object text looks like and that decoding
 * undoes encoding.
 */
module Ndjson {
  import opened Wrappers
  import opened Lines
  import opened Records

  /** `json.dumps` applied to one record. */
  type Encoder = Record -> string

  /** The warehouse's reading of one line as a record; `None` rejects the line. */
  type Decoder = string -> Option<Record>

  /** A serialized JSON object on one line: braces at both ends, no raw line feed. */
  predicate ObjectText(s: string) {
    |s| >= 2 && s[0] == '{' && s[|s| - 1] == '}' && '\n' !in s
  }

  /** Every record encodes to one-line object text (true of `json.dumps` on a dict). */
  ghost predicate OneLineEncoder(encode: Encoder) {
    forall r :: ObjectText(encode(r))
  }

  /** Decoding the encoding of any record yields that record. */
  ghost predicate Inverts(decode: Decoder, encode: Encoder) {
    forall r :: decode(encode(r)) == Some(r)
  }

  /** The encodings of the records, in order. */
  function Encodings(records: seq<Record>, encode: Encoder): (lines: seq<string>)
    ensures |lines| == |records|
    ensures forall i :: 0 <= i < |records| ==> lines[i] == encode(records[i])
  {
    seq(|records|, i requires 0 <= i < |records| => encode(records[i]))
  }

  /** The document: the records' encodings joined with single line feeds. */
  function Render(records: seq<Record>, encode: Encoder): (doc: string)
    ensures |records| == 0 ==> doc == ""
    ensures |records| == 1 ==> doc == encode(records[0])
  {
    Join(Encodings(records, encode))
  }

  /** Decodes every line, failing as a whole when any line is rejected. */
  function DecodeLines(lines: seq<string>, decode: Decoder): (r: Option<seq<Record>>)
    ensures r.Some? ==> |r.value| == |lines|
    ensures r.Some? ==> forall i :: 0 <= i < |lines| ==> decode(lines[i]) == Some(r.value[i])
    ensures r.None? <==> exists i :: 0 <= i < |lines| && decode(lines[i]).None?
  {
    if |lines| == 0 then Some([])
    else
      match decode(lines[0])
      case None => None
      case Some(first) =>
        match DecodeLines(lines[1..], decode)
        case None => (assert forall i :: 1 <= i < |lines| ==> lines[i] == lines[1..][i - 1]; None)
        case Some(rest) => (assert forall i :: 1 <= i < |lines| ==> lines[i] == lines[1..][i - 1]; Some([first] + rest))
  }

  /** The loader's reading of a document: an empty document holds no rows. */
  function Parse(doc: string, decode: Decoder): (batch: Option<seq<Record>>)
    ensures doc == "" ==> batch == Some([])
    ensures doc != "" && batch.Some? ==> |batch.value| == Newlines(doc) + 1
  {
    if doc == "" then Some([])
    else
      SplitNewlines(doc);
      DecodeLines(Split(doc), decode)
  }

  /**
   * Shape of a rendered document: one line feed fewer than records, no line
   * feed at the end, an object brace (never an array bracket) at both ends,
   * and splitting on line feeds returns the encodings in order.
   */
  lemma {:induction false} RenderShape(records: seq<Record>, encode: Encoder)
    requires OneLineEncoder(encode)
    ensures var doc := Render(records, encode);
      && (|records| == 0 <==> doc == "")
      && (|records| >= 1 ==> Newlines(doc) == |records| - 1)
      && (|records| >= 1 ==> doc[0] == '{' && doc[|doc| - 1] == '}')
      && (|records| >= 1 ==> Split(doc) == Encodings(records, encode))
  {
    var lines := Encodings(records, encode);
    if |records| >= 1 {
      assert ObjectText(lines[0]) && ObjectText(lines[|lines| - 1]);
      assert AllNewlineFree(lines) by {
        forall i | 0 <= i < |lines| ensures '\n' !in lines[i] {
          assert ObjectText(encode(records[i]));
        }
      }
      JoinNewlines(lines);
      JoinFirst(lines);
      JoinLast(lines);
      SplitJoin(lines);
    }
  }

  /** The loader reads a rendered document back as exactly the rendered records. */
  lemma {:induction false} ParseRender(records: seq<Record>, encode: Encoder, decode: Decoder)
    requires OneLineEncoder(encode)
    requires Inverts(decode, encode)
    ensures Parse(Render(records, encode), decode) == Some(records)
  {
    RenderShape(records, encode);
    var lines := Encodings(records, encode);
    if |records| >= 1 {
      var r := DecodeLines(lines, decode);
      assert forall i :: 0 <= i < |lines| ==> decode(lines[i]) == Some(records[i]);
      assert r.Some?;
      assert r.value == records;
    }
  }
}

=== FILE: pipeline.dfy ===
/**
 * One run of the script (`__main__`): ingestion, then — only when a location
 * came back — the bronze, silver and gold stages, each attempted exactly once
 * and in that order, with every stage failure swallowed.
 */
module Pipeline {
  import opened Wrappers
  import opened Jobs
  import opened Records
  import opened Ndjson
  import opened Ingestion
  import Bronze
  import Silver
  import Gold

  /** The three warehouse tables. */
  datatype Warehouse = Warehouse(bronze: Bronze.Table, silver: Silver.Table, gold: Gold.Table)

  /** Everything a run can change: the object store and the warehouse. */
  datatype State = State(lake: Lake, warehouse: Warehouse)

  /**
   * What the collaborators do during one run: the feed request, the object
   * write, the clock, each warehouse job, the query time stamped by
   * `CURRENT_TIMESTAMP()`, the JSON encoder and the loader's line decoder.
   */
  datatype Env = Env(
    fetch: FetchOutcome,
    upload: UploadOutcome,
    timestamp: int,
    bronzeJob: JobOutcome,
    silverJob: JobOutcome,
    goldJob: JobOutcome,
    queryTime: int,
    encode: Encoder,
    decode: Decoder)

  datatype Stage = BronzeLoad | SilverRefine | GoldAggregate

  /** A stage that was attempted and how it ended. */
  datatype StageRun = StageRun(stage: Stage, status: Status)

  /**
   * What a run reports: the returned location, the stages attempted in order,
   * and whether the final success banner is printed.
   */
  datatype Report = Report(uri: Option<string>, stages: seq<StageRun>, announcesSuccess: bool)

  datatype Outcome = Outcome(state: State, report: Report)

  /** The stages a report lists, in the order they ran. */
  function StageNames(runs: seq<StageRun>): (names: seq<Stage>)
    ensures |names| == |runs|
    ensures forall i :: 0 <= i < |runs| ==> names[i] == runs[i].stage
  {
    seq(|runs|, i requires 0 <= i < |runs| => runs[i].stage)
  }

  /** The warehouse after the three stages and how each stage ended. */
  datatype Stages = Stages(warehouse: Warehouse, runs: seq<StageRun>)

  /**
   * The three stages over a stored document, each attempted once and in order,
   * each run whatever the previous one did; a failed stage leaves its table as it was.
   */
  function RunStages(wh: Warehouse, lake: Lake, uri: Option<string>, env: Env): (r: Stages)
    requires Bronze.Truthy(uri)
    ensures StageNames(r.runs) == [BronzeLoad, SilverRefine, GoldAggregate]
    ensures forall i :: 0 <= i < |r.runs| ==> r.runs[i].status != Skipped
    ensures r.runs[0].status == Failed ==> r.warehouse.bronze == wh.bronze
    ensures r.runs[1].status == Failed ==> r.warehouse.silver == wh.silver
    ensures r.runs[2].status == Failed ==> r.warehouse.gold == wh.gold
  {
    var b := Bronze.LoadBronze(wh.bronze, lake, uri, env.bronzeJob, env.decode);
    var s := Silver.RefineSilver(b.table, wh.silver, env.silverJob, env.queryTime);
    var g := Gold.AggregateGold(s.table, wh.gold, env.goldJob);
    var runs := [StageRun(BronzeLoad, b.status), StageRun(SilverRefine, s.status), StageRun(GoldAggregate, g.status)];
    assert StageNames(runs) == [BronzeLoad, SilverRefine, GoldAggregate];
    Stages(Warehouse(b.table, s.table, g.table), runs)
  }

  /**
   * When the document reads back as a batch, every job finishes and the new
   * staging rows all cast, the three stages succeed: the batch is appended,
   * refined from the whole staging table and summarised.
   */
  lemma {:induction false} StagesSucceed(wh: Warehouse, lake: Lake, uri: Option<string>, env: Env, batch: seq<Record>)
    requires Bronze.Truthy(uri) && uri.value in lake
    requires Parse(lake[uri.value], env.decode) == Some(batch)
    requires env.bronzeJob.Completes? && env.silverJob.Completes? && env.goldJob.Completes?
    requires Silver.Refine(Bronze.Append(wh.bronze, batch), env.queryTime).Success?
    ensures var bronze := Bronze.Append(wh.bronze, batch);
      var refined := Silver.Refine(bronze, env.queryTime).value;
      RunStages(wh, lake, uri, env) == Stages(
        Warehouse(bronze, Silver.Table(refined), Gold.Table(Gold.Summarize(refined))),
        [StageRun(BronzeLoad, Succeeded), StageRun(SilverRefine, Succeeded), StageRun(GoldAggregate, Succeeded)])
  {
    var bronze := Bronze.Append(wh.bronze, batch);
    var b := Bronze.LoadBronze(wh.bronze, lake, uri, env.bronzeJob, env.decode);
    assert b == Bronze.Loaded(bronze, Succeeded);
    var refined := Silver.Refine(bronze, env.queryTime).value;
    var s := Silver.RefineSilver(bronze, wh.silver, env.silverJob, env.queryTime);
    assert s == Silver.Refined(Silver.Table(refined), Succeeded);
    var g := Gold.AggregateGold(s.table, wh.gold, env.goldJob);
    assert g == Gold.Aggregated(Gold.Table(Gold.Summarize(refined)), Succeeded);
  }

  /** One run of the pipeline (dataset bootstrap aside). */
  function Run(st: State, env: Env): (r: Outcome)
    ensures env.upload.UploadRaised? ==>
      r.state == st && r.report == Report(None, [], false)
    ensures env.upload.Uploaded? ==>
      && r.report.uri == Some(ObjectUri(ObjectKey(env.timestamp)))
      && StageNames(r.report.stages) == [BronzeLoad, SilverRefine, GoldAggregate]
      && r.report.announcesSuccess
    ensures forall i :: 0 <= i < |r.report.stages| ==> r.report.stages[i].status != Skipped
  {
    var ingested := Ingest(st.lake, env.fetch, env.upload, env.timestamp, env.encode);
    if !Bronze.Truthy(ingested.uri) then
      Outcome(State(ingested.lake, st.warehouse), Report(ingested.uri, [], false))
    else
      var stages := RunStages(st.warehouse, ingested.lake, ingested.uri, env);
      Outcome(State(ingested.lake, stages.warehouse), Report(ingested.uri, stages.runs, true))
  }

  /**
   * Log and continue: once the document is stored, each stage works on what
   * the previous stage left — the refresh runs over the old staging table when
   * the load failed, and the summary over the old refined table when the
   * refresh failed.
   */
  lemma {:induction false} StagesChain(st: State, env: Env)
    requires env.upload.Uploaded?
    ensures var r := Run(st, env);
      var lake := Ingest(st.lake, env.fetch, env.upload, env.timestamp, env.encode).lake;
      var b := Bronze.LoadBronze(st.warehouse.bronze, lake, r.report.uri, env.bronzeJob, env.decode);
      var s := Silver.RefineSilver(b.table, st.warehouse.silver, env.silverJob, env.queryTime);
      var g := Gold.AggregateGold(s.table, st.warehouse.gold, env.goldJob);
      && r.state.warehouse == Warehouse(b.table, s.table, g.table)
      && r.report.stages == [StageRun(BronzeLoad, b.status), StageRun(SilverRefine, s.status), StageRun(GoldAggregate, g.status)]
      && (b.status == Failed ==> r.state.warehouse.bronze == st.warehouse.bronze)
      && (s.status == Failed ==> r.state.warehouse.silver == st.warehouse.silver)
      && (g.status == Failed ==> r.state.warehouse.gold == st.warehouse.gold)
  {
  }

  /**
   * A stored document always loads when the warehouse lets the job finish and
   * the decoder reads back what the encoder wrote; the staging table then
   * holds its old rows followed by the selected records, each restricted to
   * the table's columns.
   */
  lemma {:induction false} RunAppendsBatch(st: State, env: Env)
    requires env.upload.Uploaded? && env.bronzeJob.Completes?
    requires OneLineEncoder(env.encode) && Inverts(env.decode, env.encode)
    ensures var r := Run(st, env);
      && r.report.stages[0] == StageRun(BronzeLoad, Succeeded)
      && r.state.warehouse.bronze == Bronze.Append(st.warehouse.bronze, SelectRecords(env.fetch))
  {
    var records := SelectRecords(env.fetch);
    ParseRender(records, env.encode, env.decode);
  }
}

=== FILE: records.dfy ===
/**
 * Asset snapshot records as captured from the feed: JSON objects whose
 * field values are strings (numbers are carried as text) or null.
 */
module Records {

  /** A JSON field value of a captured record. */
  datatype Value = Null | Str(text: string)

  /** A captured record: field name to value, stored exactly as received. */
  type Record = map<string, Value>

  /** The six fields of an asset observation. */
  const AssetFields: set<string> :=
    {"id", "symbol", "name", "priceUsd", "marketCapUsd", "changePercent24Hr"}

  /** An asset observation whose six fields are all strings. */
  function Asset(id: string, symbol: string, name: string, price: string, cap: string, change: string): (r: Record)
    ensures r.Keys == AssetFields
    ensures r["id"] == Str(id) && r["symbol"] == Str(symbol) && r["name"] == Str(name)
    ensures r["priceUsd"] == Str(price) && r["marketCapUsd"] == Str(cap) && r["changePercent24Hr"] == Str(change)
  {
    map["id" := Str(id), "symbol" := Str(symbol), "name" := Str(name),
        "priceUsd" := Str(price), "marketCapUsd" := Str(cap), "changePercent24Hr" := Str(change)]
  }

  /** The fixed synthetic snapshot used when the feed cannot be read. */
  function FallbackRecords(): (rs: seq<Record>)
    ensures |rs| == 3
    ensures forall i :: 0 <= i < |rs| ==> rs[i].Keys == AssetFields
    ensures rs[0]["id"] == Str("bitcoin") && rs[1]["id"] == Str("ethereum") && rs[2]["id"] == Str("solana")
  {
    [ Asset("bitcoin", "BTC", "Bitcoin", "65000.50", "1200000000000", "2.5"),
      Asset("ethereum", "ETH", "Ethereum", "3500.20", "400000000000", "-1.2"),
      Asset("solana", "SOL", "Solana", "140.00", "60000000000", "5.0") ]
  }
}

=== FILE: silver.dfy ===
/**
 * Silver layer (`camada_silver`): `CREATE OR REPLACE TABLE SLV_assets AS SELECT ...
 * FROM BRZ_assets` — one typed row per staging row, recomputed from scratch.
 */
module Silver {
  import opened Wrappers
  import opened Decimal
  import opened Records
  import opened Jobs
  import Bronze

  /** One refined asset row; NULL columns are `None`, FLOAT64 columns are exact reals. */
  datatype Row = Row(
    assetId: Option<string>,
    symbol: Option<string>,
    name: Option<string>,
    priceUsd: Option<real>,
    marketCap: Option<real>,
    change24h: Option<real>,
    loadedAt: int)

  /** The refined table: not yet created, or its rows. */
  datatype Table = Absent | Table(rows: seq<Row>)

  /** Why the query fails. */
  datatype Error = NoBronzeTable | UnknownColumn | InvalidNumber

  /** The columns the query selects from the staging table. */
  const SelectedColumns: set<string> := AssetFields

  /** A staging row's value in a column; a field the row lacks reads as NULL. */
  function Column(r: Record, name: string): (v: Value) {
    if name in r then r[name] else Null
  }

  /** A text column as selected: NULL stays NULL. */
  function AsText(v: Value): (t: Option<string>)
    ensures t.Some? <==> v.Str?
    ensures t.Some? ==> t.value == v.text
  {
    match v
    case Null => None
    case Str(s) => Some(s)
  }

  /** Whether `CAST(v AS FLOAT64)` succeeds: NULL casts to NULL, text must be a number. */
  predicate Castable(v: Value) {
    v.Null? || ParseReal(v.text).Some?
  }

  /** `CAST(v AS FLOAT64)`. */
  function CastFloat(v: Value): (r: Result<Option<real>, Error>)
    ensures r.Success? <==> Castable(v)
    ensures r.Success? ==> (r.value.None? <==> v.Null?)
    ensures r.Success? && v.Str? ==> r.value == ParseReal(v.text)
  {
    match v
    case Null => Success(None)
    case Str(s) =>
      match ParseReal(s)
      case Some(x) => Success(Some(x))
      case None => Failure(InvalidNumber)
  }

  /** A staging row whose three numeric fields all cast. */
  predicate RowCastable(r: Record) {
    Castable(Column(r, "priceUsd")) && Castable(Column(r, "marketCapUsd")) && Castable(Column(r, "changePercent24Hr"))
  }

  /** The SELECT list applied to one staging row, stamped with the query time. */
  function RefineRow(r: Record, now: int): (out: Result<Row, Error>)
    ensures out.Success? <==> RowCastable(r)
    ensures out.Success? ==> out.value.assetId == AsText(Column(r, "id"))
    ensures out.Success? ==> out.value.loadedAt == now
    ensures out.Success? ==> out.value.symbol == AsText(Column(r, "symbol"))
    ensures out.Success? ==> out.value.name == AsText(Column(r, "name"))
    ensures out.Success? ==> out.value.priceUsd == CastFloat(Column(r, "priceUsd")).value
    ensures out.Success? ==> out.value.marketCap == CastFloat(Column(r, "marketCapUsd")).value
    ensures out.Success? ==> out.value.change24h == CastFloat(Column(r, "changePercent24Hr")).value
    ensures out.Success? ==> (out.value.priceUsd.None? <==> Column(r, "priceUsd").Null?)
  {
    var price :- CastFloat(Column(r, "priceUsd"));
    var cap :- CastFloat(Column(r, "marketCapUsd"));
    var change :- CastFloat(Column(r, "changePercent24Hr"));
    Success(Row(AsText(Column(r, "id")), AsText(Column(r, "symbol")), AsText(Column(r, "name")),
                price, cap, change, now))
  }

  /** Every staging row through the SELECT list; one bad cast fails the whole query. */
  function RefineRows(rows: seq<Record>, now: int): (out: Result<seq<Row>, Error>)
    ensures out.Success? <==> forall i :: 0 <= i < |rows| ==> RowCastable(rows[i])
    ensures out.Success? ==> |out.value| == |rows|
    ensures out.Success? ==> forall i :: 0 <= i < |rows| ==> RefineRow(rows[i], now) == Success(out.value[i])
  {
    if |rows| == 0 then Success([])
    else
      var first :- RefineRow(rows[0], now);
      assert forall i :: 1 <= i < |rows| ==> rows[i] == rows[1..][i - 1];
      var rest :- RefineRows(rows[1..], now);
      Success([first] + rest)
  }

  /** The query: it needs the staging table and all six selected columns. */
  function Refine(b: Bronze.Table, now: int): (out: Result<seq<Row>, Error>)
    ensures b.Absent? ==> out == Failure(NoBronzeTable)
    ensures out.Success? <==>
      b.Table? && SelectedColumns <= b.columns && forall i :: 0 <= i < |b.rows| ==> RowCastable(b.rows[i])
    ensures out.Success? ==> |out.value| == |b.rows|
  {
    match b
    case Absent => Failure(NoBronzeTable)
    case Table(cols, rows) =>
      if !(SelectedColumns <= cols) then Failure(UnknownColumn)
      else RefineRows(rows, now)
  }

  /** Refined row i is staging row i through the SELECT list. */
  lemma {:induction false} RefineRowwise(b: Bronze.Table, now: int)
    requires Refine(b, now).Success?
    ensures forall i :: 0 <= i < |b.rows| ==> RefineRow(b.rows[i], now) == Success(Refine(b, now).value[i])
  {
  }

  /** The refined table after a stage and the stage's status. */
  datatype Refined = Refined(table: Table, status: Status)

  /** One silver stage: replace the whole table on success, keep it on any failure. */
  function RefineSilver(b: Bronze.Table, s: Table, job: JobOutcome, now: int): (r: Refined)
    ensures r.status != Skipped
    ensures r.status == Failed ==> r.table == s
    ensures r.status == Succeeded <==> job.Completes? && Refine(b, now).Success?
    ensures r.status == Succeeded ==> r.table == Table(Refine(b, now).value)
  {
    if job.Raises? then Refined(s, Failed)
    else
      match Refine(b, now)
      case Failure(_) => Refined(s, Failed)
      case Success(rows) => Refined(Table(rows), Succeeded)
  }

  /** A refined row with the load timestamp blanked out. */
  function Untimed(r: Row): (u: Row) {
    r.(loadedAt := 0)
  }

  /**
   * The result depends only on the staging rows: for the same staging table,
   * any two query times succeed or fail together and give the same rows,
   * apart from the load timestamp.
   */
  lemma {:induction false} RefineRowsIgnoresClock(rows: seq<Record>, now1: int, now2: int)
    ensures RefineRows(rows, now1).Success? <==> RefineRows(rows, now2).Success?
    ensures RefineRows(rows, now1).Success? ==>
      var a := RefineRows(rows, now1).value;
      var b := RefineRows(rows, now2).value;
      |a| == |b| && forall i :: 0 <= i < |a| ==> Untimed(a[i]) == Untimed(b[i]) && a[i].loadedAt == now1
  {
    if RefineRows(rows, now1).Success? {
      var a := RefineRows(rows, now1).value;
      var b := RefineRows(rows, now2).value;
      forall i | 0 <= i < |a| ensures Untimed(a[i]) == Untimed(b[i]) && a[i].loadedAt == now1 {
        assert RefineRow(rows[i], now1) == Success(a[i]);
        assert RefineRow(rows[i], now2) == Success(b[i]);
      }
    }
  }

  /**
   * Full replace: a successful stage's table is determined by the staging
   * table and the query time alone — the previous refined table plays no part,
   * so refining twice over unchanged staging data differs only in timestamps.
   */
  lemma {:induction false} RefineReplaces(b: Bronze.Table, s1: Table, s2: Table, now1: int, now2: int)
    requires RefineSilver(b, s1, Completes, now1).status == Succeeded
    ensures RefineSilver(b, s2, Completes, now2).status == Succeeded
    ensures var t1 := RefineSilver(b, s1, Completes, now1).table;
      var t2 := RefineSilver(b, s2, Completes, now2).table;
      |t1.rows| == |t2.rows| == |b.rows|
      && forall i :: 0 <= i < |t1.rows| ==> Untimed(t1.rows[i]) == Untimed(t2.rows[i])
  {
    RefineRowsIgnoresClock(b.rows, now1, now2);
  }

  /** One refined row per staging row, carrying the staging row's `id` as `asset_id`. */
  lemma {:induction false} RefineProjectsIds(b: Bronze.Table, now: int)
    requires Refine(b, now).Success?
    ensures var rows := Refine(b, now).value;
      forall i :: 0 <= i < |rows| ==> rows[i].assetId == AsText(Column(b.rows[i], "id"))
  {
    var rows := Refine(b, now).value;
    forall i | 0 <= i < |rows| ensures rows[i].assetId == AsText(Column(b.rows[i], "id")) {
      assert RefineRow(b.rows[i], now) == Success(rows[i]);
    }
  }
}

=== FILE: wrappers.dfy ===
/** Failure-compatible result types shared by the pipeline model. */
module Wrappers {

  /** A value that may be absent; stands for Python's `None` and SQL's NULL. */
  datatype Option<+T> = None | Some(value: T) {

    /** Returns the value, or `default` when absent (Python's `dict.get(key, default)`). */
    function GetOr(default: T): (v: T) {
      match this
      case Some(v) => v
      case None => default
    }
  }

  /** Either a value or an error; stands for a call that may raise. */
  datatype Result<+R, +E> = Success(value: R) | Failure(error: E) {

    predicate IsFailure() {
      Failure?
    }

    function PropagateFailure<U>(): (r: Result<U, E>)
      requires Failure?
    {
      Failure(error)
    }

    function Extract(): (v: R)
      requires Success?
    {
      value
    }
  }
}
